=== FILE: README.md ===
# Dota 2 statistics core, modelled in Dafny

The Dota 2 MCP server answers questions about players, heroes and drafts from
OpenDota data. Between fetching the data and printing the answer, the server
counts, filters and ranks. This project models that statistics and ranking
core of `src/index.ts` and proves what it computes:

- **Name lookups.** `getHeroName` and `getItemName`, with their fallbacks.
- **Player-hero rankings.** Most played and most effective, and the win
  predicate behind the recent-match summary.
- **Matchups.** The best and worst matchup lists of a hero.
- **Ability builds.** The `abilityByLevel` count table. For every level from
  1 to 25 it gives the most common ability; ties go to the smallest ability
  id.
- **Item builds.** The `itemStats` dictionary of final-slot items. From it:
  - the frequency ranking;
  - the highest-win-rate list;
  - the core items;
  - the farming/fighting classification and the playstyle label.
- **Draft suggestions.** `suggestDraftPicks` and `analyzeTeamRoles`:
  - every hero not yet picked gets an additive score from five bonuses,
    each with its reason;
  - the ten best are suggested.

The data the server fetches comes in as parameters: the hero list, the hero
meta statistics, the item catalogue, the detailed matches and the player's
hero records. An absent cache is `None`.

The code mutates a dictionary, a nested map, a `Set` or a score with its
reason list. Those parts are methods, proved against specification
functions. These methods have loops:

- `ItemBuilds.TallyItems`
- `AbilityBuilds.CountByLevel`
- `Draft.AnalyzeTeamRoles`
- `Draft.ScoreAll`
- `AbilityBuilds.AnalyzeAbilityBuilds`, the level loop

`Draft.ScoreHero` has no loop. It updates the score and the reason list
in five straight-line steps, one per bonus.

The `filter`/`sort`/`slice` pipelines are functions with lemmas.

How JavaScript behaviour is modelled:

- **Sorting.** `Array.prototype.sort` is stable, which ECMAScript requires
  since 2019. It is modelled as a stable insertion sort (`Ranking.SortDesc`).
  An ascending sort is the same sort on the negated key.
- **`Object.entries` on integer keys.** It lists the keys in ascending
  numeric order (`Entries.IntKeyedEntries`). The stable sort then keeps them
  in that order among equal counts. This is why ties go to the smallest id.
- **Ratios.** Win rates are exact: sort keys are `real` ratios, and
  threshold tests are integer cross-multiplications.

Modules:

| module | contents |
|---|---|
| `Records` | the records read from the API |
| `Lists` | `filter`, `slice(0, n)`, `find` |
| `Ranking` | the stable sort and top-k facts |
| `Text` | number/string conversion, ASCII lower case, substring |
| `Lookups` | name lookups |
| `Entries` | `Object.entries` |
| `PlayerHeroes` | player-hero rankings and recent matches |
| `Matchups` | best and worst matchups |
| `AbilityBuilds` | ability build analysis |
| `ItemBuilds` | item build analysis |
| `Draft` | draft suggestions |

## Model

| member | source | states |
|---|---|---|
| Lists.Find | src/index.ts:449 | `find` gives `None` exactly when no element satisfies the predicate, and otherwise the element at the first index that does |
| Lists.Filter | src/index.ts:1090 | `filter` keeps the elements that satisfy the predicate and no others, and is never longer than its input |
| Lists.FilterCounts | src/index.ts:1090 | each element that satisfies the predicate is kept as often as it occurs; every other element is dropped |
| Lists.FilterConcat | src/index.ts:1090 | filtering a concatenation is concatenating the filtered parts, so the kept elements stay in input order |
| Lookups.FindHero | src/index.ts:449 | the hero found is the first cached hero with the requested id; `None` exactly when no cached hero has it |
| Lookups.HeroName | src/index.ts:444-451 | the localized name of the first cached hero with the id; `Hero ID <id>` without a cache or without such a hero |
| Lookups.ItemName | src/index.ts:551-558 | `Empty Slot` for ids of 0 or less; otherwise the catalogue's display name under the id's decimal key, else `Item ID <id>` |
| Text.ParseIntRoundTrip | src/index.ts:969-972 | `parseInt` reads back every integer a template literal writes, so the dictionary keys turn back into the item ids |
| Records.WinMeansOwnSideWon | src/index.ts:792 | a match is won exactly when the player is Radiant (slot below 128) and Radiant won, or is Dire and Radiant lost |
| PlayerHeroes.MostPlayed | src/index.ts:630-632 | exactly min(10, number of records) records, all from the input, games non-increasing, no left-out record with more games than a kept one, equal games in input order |
| PlayerHeroes.MostEffective | src/index.ts:635-638 | exactly min(10, number of records with at least five games) records, each with at least five games, win ratio non-increasing, no left-out eligible record with a higher ratio than a kept one, ties in input order |
| PlayerHeroes.RatioOrder | src/index.ts:637 | comparing `win / games` ratios is comparing integer cross products |
| PlayerHeroes.PlayerHeroRankings | src/index.ts:618-638 | no rankings exactly for an empty record list; otherwise the two rankings, and most played is non-empty |
| PlayerHeroes.CountWins | src/index.ts:803 | the win count is the length of the list of matches the win predicate keeps, as `filter(...).length`; so it is at most the number of matches, equals it exactly when every match was won, and is 0 exactly when none was |
| PlayerHeroes.RecentMatches | src/index.ts:790-803 | no summary exactly for an empty match list; otherwise one outcome per match, each the win predicate of that match, and the win count, the number of matches the win predicate keeps, at most the match count |
| Matchups.BestMatchups | src/index.ts:855-858 | exactly min(10, number of matchups with at least 50 games) matchups, each with at least 50 games, win rate non-increasing, no left-out qualifying matchup with a higher win rate, ties in input order |
| Matchups.WorstMatchups | src/index.ts:861-864 | exactly min(10, number of matchups with at least 50 games) matchups, each with at least 50 games, win rate non-decreasing, no left-out qualifying matchup with a lower win rate, ties in input order |
| Matchups.AnalyzeMatchups | src/index.ts:837-864 | no analysis exactly for an empty matchup list; otherwise both lists |
| Matchups.FewGamesInNeitherList | src/index.ts:855-864 | a matchup under 50 games, such as one with 40, is in neither list |
| Matchups.ListsFullWhenEnoughData | src/index.ts:855-864 | with ten or more qualifying matchups both lists have exactly ten entries, as their exact lengths give |
| AbilityBuilds.UpgradeLists | src/index.ts:702-710 | the sample has no more lists than there are matches, and is empty exactly when no match has an upgrade list |
| AbilityBuilds.UpgradeListsSelected | src/index.ts:702-710 | the sample is exactly the upgrade lists of the matches that have one, in match order |
| AbilityBuilds.UpgradeCountAtMostLevelCount | src/index.ts:724-736 | no ability is counted at a level more often than upgrades happen at that level |
| AbilityBuilds.CountByLevel | src/index.ts:722-736 | the table holds a level exactly when some upgrade happened there, and an ability under a level exactly when it was upgraded there, with the number of such upgrades as its count |
| AbilityBuilds.MostCommonAt | src/index.ts:744-745 | the first entry after sorting a level's counts has the largest count at that level, and every ability with a smaller id has a strictly smaller count |
| AbilityBuilds.MostCommonUnique | src/index.ts:744-745 | the reported ability of a level is unique |
| AbilityBuilds.AnalyzeAbilityBuilds | src/index.ts:710-749 | no data exactly when no match has an upgrade list; otherwise the sample size, and for every level 1 to 25 with an upgrade, in increasing order, its most common ability |
| Entries.IntKeyedEntries | src/index.ts:969 | `Object.entries` of an integer-keyed dictionary: every entry once, with its value, keys strictly ascending |
| Ranking.SortDescSorted | src/index.ts:977 | the comparator sort puts keys in non-increasing order |
| Ranking.SortDescStable | src/index.ts:1168 | the sort keeps elements with equal keys in their input order |
| Ranking.SortDescLexSorted | src/index.ts:745 | sorting a list with strictly ascending ids leaves equal keys in ascending id order |
| Ranking.FilterAscending | src/index.ts:969-976 | filtering a list with strictly ascending ids keeps the ids strictly ascending |
| Ranking.TopFacts | src/index.ts:1167-1169 | sort-then-`slice(0, n)`: exactly min(n, length of the input) elements, all from the input, keys non-increasing, nothing left out that outranks something kept, ties in input order |
| Ranking.TopKeepsCopies | src/index.ts:1167-1169 | sort-then-`slice(0, n)` keeps no element more often than the input has it |
| ItemBuilds.WinsAtMostGames | src/index.ts:951-966 | for every item id, wins never exceed games |
| ItemBuilds.NoGamesForEmptySlotId | src/index.ts:955-956 | item id 0 (an empty slot) and negative ids are never counted |
| ItemBuilds.TallyMatch | src/index.ts:952-965 | one match adds each item's number of slot appearances to its games, and to its wins when the match was won, creating missing entries |
| ItemBuilds.TallyItems | src/index.ts:949-966 | the dictionary holds exactly the items with at least one slot appearance, each with its games (appearances over all matches) and wins (appearances in won matches) |
| ItemBuilds.FrequencyRanking | src/index.ts:969-977 | exactly the items with at least two games, games non-increasing, and equal games in ascending item id when the entries come in ascending id order |
| ItemBuilds.RankingOfEntries | src/index.ts:969-977 | the ranking holds exactly the items with at least two games, each with its own counts and catalogue name, most games first, ties by ascending item id |
| ItemBuilds.MostFrequent | src/index.ts:983 | the list shown is the first fifteen of the frequency ranking, or all of it when shorter |
| ItemBuilds.WinRateRanking | src/index.ts:989-992 | exactly min(10, number of ranked items with at least three games) items, each with at least three games, win rate non-increasing, no left-out eligible item with a higher win rate, ties in frequency-ranking order |
| ItemBuilds.HalfRoundedUp | src/index.ts:1006 | `Math.ceil(n * 0.5)`: the least h with 2h at least n |
| ItemBuilds.CoreItems | src/index.ts:1005-1007 | an item is core exactly when it is ranked, has at least half as many slot appearances as there are sampled matches (rounded up), and wins at least half of its games |
| Text.ContainsIffOccurs | src/index.ts:1018 | `includes` holds exactly when the needle occurs in the string at some index |
| Text.LowerConcat | src/index.ts:1018 | lower-casing works character by character, so it distributes over concatenation |
| ItemBuilds.ListedNameInsideMatches | src/index.ts:1014-1023 | an item name with a listed farming or fighting name anywhere inside it is classified by that list |
| ItemBuilds.CaseBlindClassification | src/index.ts:1017-1023 | two names that differ only in letter case are classified alike |
| ItemBuilds.FallbackNameUnclassified | src/index.ts:1014-1023 | an item shown under the fallback `Item ID <n>` matches no farming and no fighting name |
| ItemBuilds.SumGamesConcat | src/index.ts:1034-1035 | the `reduce` sum of games over a concatenation is the sum of the two sums |
| ItemBuilds.SumGamesZero | src/index.ts:1034-1035 | the sum of games is 0 exactly when every item has 0 games |
| ItemBuilds.UnclassifiedRankingIsBalanced | src/index.ts:1017-1043 | with no farming and no fighting item among the ranked items, both sums are 0 and the label is balanced |
| ItemBuilds.PlaystyleOf | src/index.ts:1034-1043 | farming exactly when farming games exceed fighting games, fighting exactly when the reverse holds, balanced exactly when they are equal, both 0 included |
| ItemBuilds.AnalyzeItemBuilds | src/index.ts:937-1043 | no data exactly for an empty sample; otherwise the frequency ranking described above and the report built from it |
| Draft.AnalyzeTeamRoles | src/index.ts:1207-1219 | no roles without a hero list; otherwise the team roles of the picked heroes |
| Draft.TeamRolesMembers | src/index.ts:1210-1218 | a role is in the team roles exactly when some picked hero that the hero list knows has it |
| Draft.TeamRolesDistinct | src/index.ts:1210-1218 | the team roles hold no role twice |
| Draft.MissingRoles | src/index.ts:1124-1125 | a role is missing exactly when it is one of the five fixed roles and no ally covers it |
| Draft.PlayerPool | src/index.ts:1093-1101 | the player's pool holds exactly the fetched records with at least three games, and only when there is an account |
| Draft.PoolEntry | src/index.ts:1142-1144 | the player's entry for a hero is the first pool record whose `hero_id` parses to the hero's id; one is found whenever such a record exists and there is an account |
| Draft.FewGamesNeverInPool | src/index.ts:1097 | a record with fewer than three games never earns a familiarity bonus |
| Draft.HighWinRateIsRatio | src/index.ts:1145-1146 | the integer test `100 win > 55 games` is the ratio test `(win / games) * 100 > 55` |
| Draft.RoleBonus | src/index.ts:1124-1132 | a role reason is given exactly when one of the hero's roles is missing, and it names the first such role |
| Draft.ScoreHero | src/index.ts:1108-1163 | a hero without meta statistics scores 0 with no reasons; otherwise the reasons are the bonuses tried in order, and the score is their total |
| Draft.BonusesSum | src/index.ts:1116-1161 | the score is the sum of the applied bonuses (20, 25, 10, 30 or 15, 10), and there is one reason per applied bonus |
| Draft.FamiliarityExclusive | src/index.ts:1146-1154 | the win-rate and experience bonuses are never both given |
| Draft.ScoreRange | src/index.ts:1108-1163 | every score lies between 0 and 95 |
| Draft.ExampleScore | src/index.ts:1116-1161 | a hero at meta value 53 and pick value 20 that fills a missing role, with enemies picked and no player data, scores 65 with four reasons |
| Draft.Available | src/index.ts:1089-1090 | a hero is available exactly when it is in the hero list and neither team picked it |
| Draft.AvailableInListOrder | src/index.ts:1089-1090 | the available heroes keep their hero-list order, and every listed copy of an unpicked hero is kept |
| Draft.ScoreAll | src/index.ts:1108-1164 | the scored list is the available heroes, each with its own score and reasons, in hero-list order |
| Draft.ScoredEntries | src/index.ts:1108-1164 | entry i of the scored list is available hero i, with its own reasons and their total |
| Draft.TopSuggestions | src/index.ts:1167-1169 | exactly min(10, number of scored heroes) suggestions, all scored, scores non-increasing, no left-out hero scoring above a suggested one, equal scores in hero-list order |
| Draft.SuggestionsValid | src/index.ts:1089-1169 | every suggested hero is in the hero list, picked by neither team, and carries its own reasons and their total, a score between 0 and 95 |
| Draft.SuggestDraftPicks | src/index.ts:1078-1188 | unavailable exactly without the hero list or the meta statistics; otherwise the ally roles, the top ten of the scored available heroes, and the no-history note exactly when there is an account and an empty pool |

## Left out

- The MCP protocol surface: tool listing, argument dispatch and error wrapping.
- All network access and cache filling. The API responses and caches are
  inputs.
- The per-match fetch loops. They cap the sample at ten matches and skip
  failed fetches. The model receives the player's entries of the matches
  that could be fetched. The optional player-record fetch becomes a list,
  empty when that fetch fails.
- `searchPlayer` and the `getItems` listing.
- Text building: message strings, emoji, `toFixed`, dates, and the KDA and
  duration averages of the recent-match summary. Each draft reason is a
  `Reason` value that carries what its message shows.
- Floating point. All ratios are exact, so the model can differ from
  IEEE-754 doubles at a boundary. For 11 wins in 20 games, `(11 / 20) * 100`
  evaluates to slightly more than 55 in doubles. The source would then
  give +30; the exact model says 55 is not above 55. Ties between
  floating-point win rates are likewise decided exactly.
- `Text.ParseInt`: the `0x` hexadecimal prefix that `parseInt` honours
  without a radix is not modelled. Hero ids arrive as decimal strings.
- `Text.Lower`: lower-cases ASCII letters only, not the full Unicode case
  mapping of `toLowerCase`.
- `Entries.IntKeyedEntries`: ascending order assumes every key is an array
  index, meaning below 2^32 - 1. Larger keys come after the index keys in
  insertion order in JavaScript, and the model does not cover that case.
- Absent fields:
  - `7_win` and `7_pick` are the numbers the code compares, with `|| 0` for
    an absent value.
  - An absent `roles` array is the empty list.
  - An absent item slot is `None`.
  - JavaScript values that are neither numbers nor absent are not modelled.
- `enemyRoles` is computed in `suggestDraftPicks` but never used. It has no
  effect to model.
- The item-id reference section printed after the playstyle line is text
  output only.
- Integer width: JavaScript numbers are doubles. The counts here are far
  below 2^53, so the model uses unbounded integers.

=== FILE: abilities.dfy ===
/** The ability build analysis: how often each ability was upgraded at each
    hero level across the sampled matches, and the most common choice for
    every level from 1 to 25. */
module AbilityBuilds {

  import opened Records
  import opened Ranking
  import opened Entries

  const MaxLevel := 25

  /** The upgrade lists of the matches whose player entry has one; only
      those matches enter the sample. */
  function UpgradeLists(ms: seq<DetailedMatch>): (r: seq<seq<AbilityUpgrade>>)
    ensures |r| <= |ms|
    ensures r == [] <==> forall i :: 0 <= i < |ms| ==> ms[i].abilityUpgrades.None?
  {
    if ms == [] then []
    else
      var last := ms[|ms| - 1];
      UpgradeLists(ms[..|ms| - 1]) + (if last.abilityUpgrades.Some? then [last.abilityUpgrades.value] else [])
  }

  /** `idx` lists, in increasing order, the matches whose upgrade lists make
      up `r`: entry `k` of `r` is the upgrade list of match `idx[k]`, and
      every match that has an upgrade list is listed. */
  ghost predicate SelectsUpgradeLists(ms: seq<DetailedMatch>, r: seq<seq<AbilityUpgrade>>, idx: seq<int>)
  {
    && |idx| == |r|
    && (forall k :: 0 <= k < |idx| ==> 0 <= idx[k] < |ms| && ms[idx[k]].abilityUpgrades == Some(r[k]))
    && (forall k, l :: 0 <= k < l < |idx| ==> idx[k] < idx[l])
    && (forall i :: 0 <= i < |ms| && ms[i].abilityUpgrades.Some? ==> exists k :: 0 <= k < |idx| && idx[k] == i)
  }

  /** The sample is exactly the upgrade lists of the matches that have one,
      in match order. */
  lemma {:induction false} UpgradeListsSelected(ms: seq<DetailedMatch>)
    ensures exists idx :: SelectsUpgradeLists(ms, UpgradeLists(ms), idx)
  {
    if ms == [] {
      assert SelectsUpgradeLists(ms, UpgradeLists(ms), []);
    } else {
      var n := |ms| - 1;
      UpgradeListsSelected(ms[..n]);
      var idx0 :| SelectsUpgradeLists(ms[..n], UpgradeLists(ms[..n]), idx0);
      if ms[n].abilityUpgrades.Some? {
        SelectNextSample(ms, UpgradeLists(ms[..n]), idx0);
        assert SelectsUpgradeLists(ms, UpgradeLists(ms), idx0 + [n]);
      } else {
        SkipNextMatch(ms, UpgradeLists(ms[..n]), idx0);
        assert SelectsUpgradeLists(ms, UpgradeLists(ms), idx0);
      }
    }
  }

  /** A last match with an upgrade list adds its list to the sample. */
  lemma SelectNextSample(ms: seq<DetailedMatch>, r0: seq<seq<AbilityUpgrade>>, idx0: seq<int>)
    requires ms != [] && ms[|ms| - 1].abilityUpgrades.Some?
    requires SelectsUpgradeLists(ms[..|ms| - 1], r0, idx0)
    ensures SelectsUpgradeLists(ms, r0 + [ms[|ms| - 1].abilityUpgrades.value], idx0 + [|ms| - 1])
  {
    var n := |ms| - 1;
    var idx := idx0 + [n];
    assert forall i :: 0 <= i < n ==> ms[..n][i] == ms[i];
    forall i | 0 <= i < |ms| && ms[i].abilityUpgrades.Some?
      ensures exists k :: 0 <= k < |idx| && idx[k] == i
    {
      if i == n {
        assert idx[|idx0|] == n;
      } else {
        assert ms[..n][i] == ms[i];
        var k :| 0 <= k < |idx0| && idx0[k] == i;
        assert idx[k] == i;
      }
    }
  }

  /** A last match without an upgrade list leaves the sample as it is. */
  lemma SkipNextMatch(ms: seq<DetailedMatch>, r0: seq<seq<AbilityUpgrade>>, idx0: seq<int>)
    requires ms != [] && ms[|ms| - 1].abilityUpgrades.None?
    requires SelectsUpgradeLists(ms[..|ms| - 1], r0, idx0)
    ensures SelectsUpgradeLists(ms, r0, idx0)
  {
    var n := |ms| - 1;
    assert forall i :: 0 <= i < n ==> ms[..n][i] == ms[i];
    forall i | 0 <= i < |ms| && ms[i].abilityUpgrades.Some?
      ensures exists k :: 0 <= k < |idx0| && idx0[k] == i
    {
      assert ms[..n][i] == ms[i];
    }
  }

  /** All upgrades of all sampled matches, match by match. */
  function Flatten(ls: seq<seq<AbilityUpgrade>>): seq<AbilityUpgrade>
  {
    if ls == [] then [] else Flatten(ls[..|ls| - 1]) + ls[|ls| - 1]
  }

  /** How many upgrades in `us` put a point into `ability` at `level`. */
  function UpgradeCount(us: seq<AbilityUpgrade>, level: int, ability: int): nat
  {
    if us == [] then 0
    else
      var u := us[|us| - 1];
      UpgradeCount(us[..|us| - 1], level, ability) + (if u.level == level && u.ability == ability then 1 else 0)
  }

  /** How many upgrades in `us` happened at `level`. */
  function LevelCount(us: seq<AbilityUpgrade>, level: int): nat
  {
    if us == [] then 0
    else
      var u := us[|us| - 1];
      LevelCount(us[..|us| - 1], level) + (if u.level == level then 1 else 0)
  }

  /** No ability is upgraded at a level more often than upgrades happen there. */
  lemma {:induction false} UpgradeCountAtMostLevelCount(us: seq<AbilityUpgrade>, level: int, ability: int)
    ensures UpgradeCount(us, level, ability) <= LevelCount(us, level)
  {
    if us != [] {
      UpgradeCountAtMostLevelCount(us[..|us| - 1], level, ability);
    }
  }

  /** A level that has an upgrade has an ability upgraded there. */
  lemma {:induction false} SomeAbilityAtLevel(us: seq<AbilityUpgrade>, level: int)
    requires LevelCount(us, level) > 0
    ensures exists a :: UpgradeCount(us, level, a) > 0
  {
    var u := us[|us| - 1];
    if u.level == level {
      assert UpgradeCount(us, level, u.ability) > 0;
    } else {
      SomeAbilityAtLevel(us[..|us| - 1], level);
      var a :| UpgradeCount(us[..|us| - 1], level, a) > 0;
      assert UpgradeCount(us, level, a) > 0;
    }
  }

  /** The `abilityByLevel` table: level, then ability id, then count. A level
      or an ability is present exactly when it was counted at least once. */
  ghost predicate Tabulates(table: map<int, map<int, nat>>, us: seq<AbilityUpgrade>)
  {
    && (forall level :: level in table <==> LevelCount(us, level) > 0)
    && (forall level, a :: level in table ==>
          (a in table[level] <==> UpgradeCount(us, level, a) > 0))
    && (forall level, a :: level in table && a in table[level] ==>
          table[level][a] == UpgradeCount(us, level, a))
  }

  /** Counts one more upgrade into the table. */
  method CountUpgrade(table: map<int, map<int, nat>>, ghost before: seq<AbilityUpgrade>, u: AbilityUpgrade)
    returns (next: map<int, map<int, nat>>)
    requires Tabulates(table, before)
    ensures Tabulates(next, before + [u])
  {
    assert (before + [u])[..|before|] == before;
    next := table;
    if u.level !in next {
      forall a ensures UpgradeCount(before, u.level, a) == 0 {
        UpgradeCountAtMostLevelCount(before, u.level, a);
      }
      next := next[u.level := map[]];
    }
    var counts := next[u.level];
    var c := if u.ability in counts then counts[u.ability] else 0;
    next := next[u.level := counts[u.ability := c + 1]];
  }

  lemma FlattenSnoc(ls: seq<seq<AbilityUpgrade>>, i: nat)
    requires i < |ls|
    ensures Flatten(ls[..i + 1]) == Flatten(ls[..i]) + ls[i]
  {
    assert ls[..i + 1][..i] == ls[..i];
  }

  /** Counts every upgrade of every sampled match into the table. */
  method CountByLevel(ls: seq<seq<AbilityUpgrade>>) returns (table: map<int, map<int, nat>>)
    ensures Tabulates(table, Flatten(ls))
  {
    table := map[];
    for i := 0 to |ls|
      invariant Tabulates(table, Flatten(ls[..i]))
    {
      table := CountMatch(table, Flatten(ls[..i]), ls[i]);
      FlattenSnoc(ls, i);
    }
    assert ls[..|ls|] == ls;
  }

  /** Counts the upgrades of one match into the table. */
  method CountMatch(table: map<int, map<int, nat>>, ghost done: seq<AbilityUpgrade>, upgrades: seq<AbilityUpgrade>)
    returns (next: map<int, map<int, nat>>)
    requires Tabulates(table, done)
    ensures Tabulates(next, done + upgrades)
  {
    next := table;
    assert done + upgrades[..0] == done;
    for k := 0 to |upgrades|
      invariant Tabulates(next, done + upgrades[..k])
    {
      assert done + upgrades[..k + 1] == (done + upgrades[..k]) + [upgrades[k]];
      next := CountUpgrade(next, done + upgrades[..k], upgrades[k]);
    }
    assert upgrades[..|upgrades|] == upgrades;
  }

  /** The sort key of an `Object.entries` pair: its count. */
  function CountKey(e: (int, nat)): real
  {
    e.1 as real
  }

  function AbilityId(e: (int, nat)): int
  {
    e.0
  }

  /** The most common ability at one level and how often it was chosen. */
  datatype LevelChoice = LevelChoice(level: int, ability: int, count: nat)

  datatype AbilityBuildResult =
    | NoAbilityData
    | Choices(sampleSize: nat, choices: seq<LevelChoice>)

  /** `choice` names the most upgraded ability at its level in `us`; among
      equally common abilities, the smallest id (the first one
      `Object.entries` lists, which the stable sort keeps first). */
  ghost predicate MostCommon(us: seq<AbilityUpgrade>, choice: LevelChoice)
  {
    && choice.count == UpgradeCount(us, choice.level, choice.ability) > 0
    && (forall a :: UpgradeCount(us, choice.level, a) <= choice.count)
    && (forall a :: a < choice.ability ==> UpgradeCount(us, choice.level, a) < choice.count)
  }

  /** At most one ability is the most common choice at a level. */
  lemma MostCommonUnique(us: seq<AbilityUpgrade>, c: LevelChoice, d: LevelChoice)
    requires MostCommon(us, c) && MostCommon(us, d) && c.level == d.level
    ensures c == d
  {
  }

  /** The first entry after sorting a level's counts, largest first. */
  method MostCommonAt(table: map<int, map<int, nat>>, ghost us: seq<AbilityUpgrade>, level: int)
    returns (choice: LevelChoice)
    requires Tabulates(table, us) && level in table
    ensures choice.level == level && MostCommon(us, choice)
  {
    var es := IntKeyedEntries(table[level]);
    SomeAbilityAtLevel(us, level);
    ghost var a0 :| UpgradeCount(us, level, a0) > 0;
    assert a0 in table[level];
    var top := SortDesc(es, CountKey)[0];
    choice := LevelChoice(level, top.0, top.1);
    TopIsMostCommon(table, us, level, es);
  }

  /** The first of the sorted entries of a level is its most common choice. */
  lemma TopIsMostCommon(table: map<int, map<int, nat>>, us: seq<AbilityUpgrade>, level: int, es: seq<(int, nat)>)
    requires Tabulates(table, us) && level in table
    requires StrictlyAscending(es)
    requires forall i :: 0 <= i < |es| ==> es[i].0 in table[level] && es[i].1 == table[level][es[i].0]
    requires forall k :: k in table[level] ==> exists i :: 0 <= i < |es| && es[i].0 == k
    requires es != []
    ensures MostCommon(us, LevelChoice(level, SortDesc(es, CountKey)[0].0, SortDesc(es, CountKey)[0].1))
  {
    assert Ascending(es, AbilityId);
    var top := SortDesc(es, CountKey)[0];
    SortDescFirst(es, CountKey, AbilityId, 0);
    var choice := LevelChoice(level, top.0, top.1);
    forall a ensures UpgradeCount(us, level, a) <= choice.count
      && (a < choice.ability ==> UpgradeCount(us, level, a) < choice.count)
    {
      if a in table[level] {
        var i :| 0 <= i < |es| && es[i].0 == a;
        SortDescFirst(es, CountKey, AbilityId, i);
      }
    }
  }

  /** The choices made for the levels below `level`: increasing levels, each
      the most common choice at its level, and every level with an upgrade
      covered. */
  ghost predicate ChosenBelow(us: seq<AbilityUpgrade>, choices: seq<LevelChoice>, level: int)
  {
    && (forall i, j :: 0 <= i < j < |choices| ==> choices[i].level < choices[j].level)
    && (forall c :: c in choices ==> 1 <= c.level < level && MostCommon(us, c))
    && (forall l :: 1 <= l < level && LevelCount(us, l) > 0 ==> exists c :: c in choices && c.level == l)
  }

  lemma ChooseLevel(us: seq<AbilityUpgrade>, choices: seq<LevelChoice>, level: int, choice: LevelChoice)
    requires ChosenBelow(us, choices, level) && 1 <= level
    requires choice.level == level && MostCommon(us, choice)
    ensures ChosenBelow(us, choices + [choice], level + 1)
  {
    var next := choices + [choice];
    assert next[|choices|] == choice;
    forall i, j | 0 <= i < j < |next| ensures next[i].level < next[j].level {
      assert next[i] == choices[i];
      if j < |choices| {
        assert next[j] == choices[j];
      } else {
        assert next[i] in choices;
      }
    }
    forall l | 1 <= l < level + 1 && LevelCount(us, l) > 0 ensures exists c :: c in next && c.level == l {
      if l < level {
        var c :| c in choices && c.level == l;
        assert c in next;
      }
    }
  }

  lemma SkipLevel(us: seq<AbilityUpgrade>, choices: seq<LevelChoice>, level: int)
    requires ChosenBelow(us, choices, level) && LevelCount(us, level) == 0
    ensures ChosenBelow(us, choices, level + 1)
  {
  }

  /** The ability build analysis of the sampled matches: for every level from
      1 to 25 that has an upgrade, in increasing order, its most common
      ability. */
  method AnalyzeAbilityBuilds(ms: seq<DetailedMatch>) returns (result: AbilityBuildResult)
    ensures result.NoAbilityData? <==> UpgradeLists(ms) == []
    ensures result.Choices? ==> var us := Flatten(UpgradeLists(ms));
      && result.sampleSize == |UpgradeLists(ms)|
      && (forall i, j :: 0 <= i < j < |result.choices| ==>
            result.choices[i].level < result.choices[j].level)
      && (forall c :: c in result.choices ==>
            1 <= c.level <= MaxLevel && MostCommon(us, c))
      && (forall level :: 1 <= level <= MaxLevel && LevelCount(us, level) > 0 ==>
            exists c :: c in result.choices && c.level == level)
  {
    var ls := UpgradeLists(ms);
    if ls == [] {
      return NoAbilityData;
    }
    var table := CountByLevel(ls);
    ghost var us := Flatten(ls);
    var choices: seq<LevelChoice> := [];
    for level := 1 to MaxLevel + 1
      invariant ChosenBelow(us, choices, level)
    {
      if level in table {
        var choice := MostCommonAt(table, us, level);
        ChooseLevel(us, choices, level, choice);
        choices := choices + [choice];
      } else {
        SkipLevel(us, choices, level);
      }
    }
    result := Choices(|ls|, choices);
  }
}

=== FILE: draft.dfy ===
/** Draft suggestions: every hero not yet picked by either team gets an
    additive score from fixed bonuses, each bonus with its reason, and the
    ten best are suggested. */
module Draft {

  import opened Records
  import opened Lists
  import opened Ranking
  import opened Text
  import opened Lookups

  const MetaWinThreshold: real := 52.0
  const PickRateThreshold: real := 15.0
  const MinPoolGames := 3
  const ExperiencedGames := 10
  const SuggestionCount := 10
  const MaxScore := 95

  /** The five roles a team is expected to cover. */
  const FixedRoles: seq<string> := ["Carry", "Support", "Initiator", "Durable", "Nuker"]

  /** Why a bonus was given; each kind carries what its message shows. */
  datatype Reason =
    | StrongInMeta(winRate: real)
    | FillsRole(role: string)
    | CounterPotential
    | HighPlayerWinRate(win: int, games: int)
    | PlayerExperienced(games: int)
    | PopularPick

  /** The points each bonus adds to the score. */
  function Points(r: Reason): nat
  {
    match r
    case StrongInMeta(_) => 20
    case FillsRole(_) => 25
    case CounterPotential => 10
    case HighPlayerWinRate(_, _) => 30
    case PlayerExperienced(_) => 15
    case PopularPick => 10
  }

  /** The score a list of reasons stands for. */
  function Total(rs: seq<Reason>): nat
  {
    if rs == [] then 0 else Total(rs[..|rs| - 1]) + Points(rs[|rs| - 1])
  }

  lemma {:induction false} TotalConcat(a: seq<Reason>, b: seq<Reason>)
    ensures Total(a + b) == Total(a) + Total(b)
    decreases |b|
  {
    if b != [] {
      var init := b[..|b| - 1];
      assert (a + b)[..|a + b| - 1] == a + init;
      assert (a + b)[|a + b| - 1] == b[|b| - 1];
      TotalConcat(a, init);
      calc {
        Total(a + b);
        Total(a + init) + Points(b[|b| - 1]);
        Total(a) + Total(init) + Points(b[|b| - 1]);
        Total(a) + Total(b);
      }
    } else {
      assert a + b == a;
    }
  }

  // ---------------------------------------------------------------- team roles

  /** `Set.prototype.add` on a set kept in insertion order. */
  function AddRole(roles: seq<string>, role: string): seq<string>
  {
    if role in roles then roles else roles + [role]
  }

  /** Adds the roles of `rs` one after the other. */
  function AddRoles(roles: seq<string>, rs: seq<string>): seq<string>
  {
    if rs == [] then roles else AddRole(AddRoles(roles, rs[..|rs| - 1]), rs[|rs| - 1])
  }

  /** `Array.from(roles)` after the roles of every known hero among `ids`
      were added in turn. */
  function TeamRoles(heroes: seq<Hero>, ids: seq<int>): seq<string>
  {
    if ids == [] then []
    else
      var before := TeamRoles(heroes, ids[..|ids| - 1]);
      match FindHero(heroes, ids[|ids| - 1])
      case Some(hero) => AddRoles(before, hero.roles)
      case None => before
  }

  /** `analyzeTeamRoles`: the duplicate-free roles of the picked heroes in the
      order they first appear; none without a hero list. */
  method AnalyzeTeamRoles(cache: Option<seq<Hero>>, ids: seq<int>) returns (roles: seq<string>)
    ensures cache.None? ==> roles == []
    ensures cache.Some? ==> roles == TeamRoles(cache.value, ids)
  {
    if cache.None? {
      return [];
    }
    var heroes := cache.value;
    roles := [];
    for i := 0 to |ids|
      invariant roles == TeamRoles(heroes, ids[..i])
    {
      assert ids[..i + 1][..i] == ids[..i];
      var hero := FindHero(heroes, ids[i]);
      if hero.Some? {
        var rs := hero.value.roles;
        ghost var before := roles;
        for k := 0 to |rs|
          invariant roles == AddRoles(before, rs[..k])
        {
          assert rs[..k + 1][..k] == rs[..k];
          if rs[k] !in roles {
            roles := roles + [rs[k]];
          }
        }
        assert rs[..|rs|] == rs;
      }
    }
    assert ids[..|ids|] == ids;
  }

  /** No role occurs twice. */
  predicate Distinct(roles: seq<string>)
  {
    forall i, j :: 0 <= i < j < |roles| ==> roles[i] != roles[j]
  }

  lemma {:induction false} AddRolesMembers(roles: seq<string>, rs: seq<string>)
    ensures forall role :: role in AddRoles(roles, rs) <==> role in roles || role in rs
  {
    if rs != [] {
      AddRolesMembers(roles, rs[..|rs| - 1]);
      assert rs == rs[..|rs| - 1] + [rs[|rs| - 1]];
    }
  }

  lemma {:induction false} AddRolesDistinct(roles: seq<string>, rs: seq<string>)
    requires Distinct(roles)
    ensures Distinct(AddRoles(roles, rs))
  {
    if rs != [] {
      AddRolesDistinct(roles, rs[..|rs| - 1]);
    }
  }

  /** Every role appears once. */
  lemma {:induction false} TeamRolesDistinct(heroes: seq<Hero>, ids: seq<int>)
    ensures Distinct(TeamRoles(heroes, ids))
  {
    if ids != [] {
      TeamRolesDistinct(heroes, ids[..|ids| - 1]);
      var hero := FindHero(heroes, ids[|ids| - 1]);
      if hero.Some? {
        AddRolesDistinct(TeamRoles(heroes, ids[..|ids| - 1]), hero.value.roles);
      }
    }
  }

  /** The hero list knows the hero `id` and it has `role`. */
  predicate HasRole(heroes: seq<Hero>, id: int, role: string)
  {
    FindHero(heroes, id).Some? && role in FindHero(heroes, id).value.roles
  }

  /** Some hero among `ids` that the hero list knows has `role`. */
  predicate AnyHasRole(heroes: seq<Hero>, ids: seq<int>, role: string)
  {
    exists i :: 0 <= i < |ids| && HasRole(heroes, ids[i], role)
  }

  lemma AnyHasRoleSnoc(heroes: seq<Hero>, ids: seq<int>, role: string)
    requires ids != []
    ensures AnyHasRole(heroes, ids, role) <==>
      AnyHasRole(heroes, ids[..|ids| - 1], role) || HasRole(heroes, ids[|ids| - 1], role)
  {
    if AnyHasRole(heroes, ids, role) {
      LastOrPrefixHasRole(heroes, ids, role);
    }
    if AnyHasRole(heroes, ids[..|ids| - 1], role) {
      PrefixHasRole(heroes, ids, role);
    }
  }

  lemma LastOrPrefixHasRole(heroes: seq<Hero>, ids: seq<int>, role: string)
    requires ids != [] && AnyHasRole(heroes, ids, role)
    ensures AnyHasRole(heroes, ids[..|ids| - 1], role) || HasRole(heroes, ids[|ids| - 1], role)
  {
    var prefix := ids[..|ids| - 1];
    var i :| 0 <= i < |ids| && HasRole(heroes, ids[i], role);
    if i < |prefix| {
      assert prefix[i] == ids[i];
      assert HasRole(heroes, prefix[i], role);
    } else {
      assert i == |ids| - 1;
    }
  }

  lemma PrefixHasRole(heroes: seq<Hero>, ids: seq<int>, role: string)
    requires ids != [] && AnyHasRole(heroes, ids[..|ids| - 1], role)
    ensures AnyHasRole(heroes, ids, role)
  {
    var prefix := ids[..|ids| - 1];
    var i :| 0 <= i < |prefix| && HasRole(heroes, prefix[i], role);
    assert ids[i] == prefix[i];
  }

  /** A role is in the team's roles exactly when some picked hero that the
      hero list knows has it. */
  lemma {:induction false} TeamRolesMembers(heroes: seq<Hero>, ids: seq<int>, role: string)
    ensures role in TeamRoles(heroes, ids) <==> AnyHasRole(heroes, ids, role)
  {
    if ids != [] {
      var prefix := ids[..|ids| - 1];
      TeamRolesMembers(heroes, prefix, role);
      AnyHasRoleSnoc(heroes, ids, role);
      var hero := FindHero(heroes, ids[|ids| - 1]);
      if hero.Some? {
        AddRolesMembers(TeamRoles(heroes, prefix), hero.value.roles);
      }
    }
  }

  /** The fixed roles the allies do not cover yet, in their fixed order. */
  function MissingRoles(allyRoles: seq<string>): (r: seq<string>)
    ensures forall role :: role in r <==> role in FixedRoles && role !in allyRoles
  {
    Filter(FixedRoles, (role: string) => role !in allyRoles)
  }

  // ---------------------------------------------------------------- scoring

  /** `playerAccountId` used as a condition: present and not zero. */
  predicate Truthy(account: Option<int>)
  {
    account.Some? && account.value != 0
  }

  /** The player's hero pool: with an account, the fetched records with at
      least three games; without one, nothing. */
  function PlayerPool(account: Option<int>, fetched: seq<PlayerHero>): (pool: seq<PlayerHero>)
    ensures forall p :: p in pool <==> Truthy(account) && p in fetched && p.games >= MinPoolGames
  {
    if Truthy(account) then Filter(fetched, (p: PlayerHero) => p.games >= MinPoolGames) else []
  }

  /** The player's record on `hero`: the first pool entry whose `hero_id`
      parses to the hero's id, looked up only when there is an account and
      a non-empty pool. */
  function PoolEntry(account: Option<int>, pool: seq<PlayerHero>, hero: Hero): (r: Option<PlayerHero>)
    ensures r.Some? ==> Truthy(account) && r.value in pool && ParseInt(r.value.heroId) == Some(hero.id)
    ensures Truthy(account) && (exists p :: p in pool && ParseInt(p.heroId) == Some(hero.id)) ==> r.Some?
    ensures r.Some? ==> exists i :: 0 <= i < |pool| && pool[i] == r.value &&
                                   forall j :: 0 <= j < i ==> ParseInt(pool[j].heroId) != Some(hero.id)
  {
    if Truthy(account) && |pool| > 0 then Find(pool, (p: PlayerHero) => ParseInt(p.heroId) == Some(hero.id))
    else None
  }

  /** A fetched record with fewer than three games is never the player's
      entry for a hero, so it earns no familiarity bonus. */
  lemma FewGamesNeverInPool(account: Option<int>, fetched: seq<PlayerHero>, hero: Hero)
    ensures forall p :: PoolEntry(account, PlayerPool(account, fetched), hero) == Some(p) ==>
      p in fetched && p.games >= MinPoolGames
  {
  }

  /** `(win / games) * 100 > 55`, exactly, for a record with games. */
  predicate HighWinRate(p: PlayerHero)
  {
    100 * p.win > 55 * p.games
  }

  /** The integer comparison is the ratio comparison. */
  lemma HighWinRateIsRatio(p: PlayerHero)
    requires p.games > 0
    ensures HighWinRate(p) <==> (p.win as real / p.games as real) * 100.0 > 55.0
  {
    var g := p.games as real;
    var y := (p.win as real / g) * 100.0;
    assert y * g == 100.0 * (p.win as real);
    MultiplyPositive(y, 55.0, g);
  }

  lemma MultiplyPositive(y: real, z: real, g: real)
    requires g > 0.0
    ensures y > z <==> y * g > z * g
  {
    if y > z {
      assert (y - z) * g > 0.0;
    } else {
      assert (z - y) * g >= 0.0;
    }
  }

  /** `Total` of a list of at most one reason. */
  lemma TotalOfOptional(rs: seq<Reason>)
    requires |rs| <= 1
    ensures Total(rs) == if rs == [] then 0 else Points(rs[0])
  {
    if rs != [] {
      assert rs[..0] == [];
    }
  }

  /** +20 for a bracket-7 win value above 52. */
  function MetaBonus(meta: HeroMeta): (rs: seq<Reason>)
    ensures |rs| <= 1 && Total(rs) == if meta.win7 > MetaWinThreshold then 20 else 0
  {
    var rs := if meta.win7 > MetaWinThreshold then [StrongInMeta(meta.win7)] else [];
    TotalOfOptional(rs);
    rs
  }

  /** +25 when one of the hero's roles is missing from the allies, naming
      the first such role. */
  function RoleBonus(hero: Hero, missing: seq<string>): (rs: seq<Reason>)
    ensures rs != [] <==> exists i :: 0 <= i < |hero.roles| && hero.roles[i] in missing
    ensures rs != [] ==> exists i :: 0 <= i < |hero.roles| && rs == [FillsRole(hero.roles[i])] &&
                                     hero.roles[i] in missing && forall j :: 0 <= j < i ==> hero.roles[j] !in missing
  {
    match Find(hero.roles, (role: string) => role in missing)
    case Some(role) => [FillsRole(role)]
    case None => []
  }

  lemma RoleBonusTotal(hero: Hero, missing: seq<string>)
    ensures |RoleBonus(hero, missing)| <= 1
    ensures Total(RoleBonus(hero, missing)) == if RoleBonus(hero, missing) != [] then 25 else 0
  {
    TotalOfOptional(RoleBonus(hero, missing));
  }

  /** +10 as soon as the enemy has picked. */
  function CounterBonus(enemyPicked: bool): (rs: seq<Reason>)
    ensures |rs| <= 1 && Total(rs) == if enemyPicked then 10 else 0
  {
    var rs := if enemyPicked then [CounterPotential] else [];
    TotalOfOptional(rs);
    rs
  }

  /** +30 for a win rate above 55% on the hero, otherwise +15 for ten games
      or more, for a hero in the player's pool. */
  function FamiliarityBonus(entry: Option<PlayerHero>): (rs: seq<Reason>)
    ensures |rs| <= 1 && Total(rs) == FamiliarityPoints(entry)
  {
    var rs := match entry
      case Some(p) =>
        if HighWinRate(p) then [HighPlayerWinRate(p.win, p.games)]
        else if p.games >= ExperiencedGames then [PlayerExperienced(p.games)]
        else []
      case None => [];
    TotalOfOptional(rs);
    rs
  }

  /** +10 for a bracket-7 pick value above 15. */
  function PopularityBonus(meta: HeroMeta): (rs: seq<Reason>)
    ensures |rs| <= 1 && Total(rs) == if meta.pick7 > PickRateThreshold then 10 else 0
  {
    var rs := if meta.pick7 > PickRateThreshold then [PopularPick] else [];
    TotalOfOptional(rs);
    rs
  }

  /** The reasons of a hero with a meta-statistics entry, in the order the
      bonuses are tried. */
  function Bonuses(hero: Hero, meta: HeroMeta, missing: seq<string>, enemyPicked: bool,
                   entry: Option<PlayerHero>): seq<Reason>
  {
    MetaBonus(meta) + RoleBonus(hero, missing) + CounterBonus(enemyPicked)
    + FamiliarityBonus(entry) + PopularityBonus(meta)
  }

  /** The familiarity points of a pool entry. */
  function FamiliarityPoints(entry: Option<PlayerHero>): nat
  {
    match entry
    case Some(p) => if HighWinRate(p) then 30 else if p.games >= ExperiencedGames then 15 else 0
    case None => 0
  }

  /** The total of the reasons is the total of the bonuses. */
  lemma BonusesTotal(hero: Hero, meta: HeroMeta, missing: seq<string>, enemyPicked: bool, entry: Option<PlayerHero>)
    ensures Total(Bonuses(hero, meta, missing, enemyPicked, entry)) ==
      Total(MetaBonus(meta)) + Total(RoleBonus(hero, missing)) + Total(CounterBonus(enemyPicked))
      + Total(FamiliarityBonus(entry)) + Total(PopularityBonus(meta))
    ensures |Bonuses(hero, meta, missing, enemyPicked, entry)| ==
      |MetaBonus(meta)| + |RoleBonus(hero, missing)| + |CounterBonus(enemyPicked)|
      + |FamiliarityBonus(entry)| + |PopularityBonus(meta)|
  {
    var a, b, c := MetaBonus(meta), RoleBonus(hero, missing), CounterBonus(enemyPicked);
    var d, e := FamiliarityBonus(entry), PopularityBonus(meta);
    TotalConcat(a, b);
    TotalConcat(a + b, c);
    TotalConcat(a + b + c, d);
    TotalConcat(a + b + c + d, e);
  }

  /** The score is the sum of the bonuses that apply, with one reason per bonus. */
  lemma BonusesSum(hero: Hero, meta: HeroMeta, missing: seq<string>, enemyPicked: bool, entry: Option<PlayerHero>)
    ensures Total(Bonuses(hero, meta, missing, enemyPicked, entry)) ==
      (if meta.win7 > MetaWinThreshold then 20 else 0)
      + (if exists i :: 0 <= i < |hero.roles| && hero.roles[i] in missing then 25 else 0)
      + (if enemyPicked then 10 else 0)
      + FamiliarityPoints(entry)
      + (if meta.pick7 > PickRateThreshold then 10 else 0)
    ensures |Bonuses(hero, meta, missing, enemyPicked, entry)| ==
      (if meta.win7 > MetaWinThreshold then 1 else 0)
      + (if exists i :: 0 <= i < |hero.roles| && hero.roles[i] in missing then 1 else 0)
      + (if enemyPicked then 1 else 0)
      + (if FamiliarityPoints(entry) > 0 then 1 else 0)
      + (if meta.pick7 > PickRateThreshold then 1 else 0)
  {
    BonusesTotal(hero, meta, missing, enemyPicked, entry);
    RoleBonusTotal(hero, missing);
  }

  /** Both familiarity bonuses are never given together. */
  lemma FamiliarityExclusive(hero: Hero, meta: HeroMeta, missing: seq<string>, enemyPicked: bool, entry: Option<PlayerHero>)
    ensures var rs := Bonuses(hero, meta, missing, enemyPicked, entry);
      !((exists i :: 0 <= i < |rs| && rs[i].HighPlayerWinRate?) && (exists j :: 0 <= j < |rs| && rs[j].PlayerExperienced?))
  {
    var a, b, c := MetaBonus(meta), RoleBonus(hero, missing), CounterBonus(enemyPicked);
    var d, e := FamiliarityBonus(entry), PopularityBonus(meta);
    var rs := a + b + c + d + e;
    forall i | 0 <= i < |rs| && (rs[i].HighPlayerWinRate? || rs[i].PlayerExperienced?)
      ensures i == |a + b + c| && |d| == 1
    {
    }
  }

  /** A hero's reasons: none without a meta-statistics entry. */
  function HeroReasons(hero: Hero, metas: seq<HeroMeta>, missing: seq<string>, enemyPicked: bool,
                       account: Option<int>, pool: seq<PlayerHero>): seq<Reason>
  {
    match Find(metas, (m: HeroMeta) => m.id == hero.id)
    case None => []
    case Some(meta) => Bonuses(hero, meta, missing, enemyPicked, PoolEntry(account, pool, hero))
  }

  /** Every score lies between 0 and 95. */
  lemma ScoreRange(hero: Hero, metas: seq<HeroMeta>, missing: seq<string>, enemyPicked: bool,
                   account: Option<int>, pool: seq<PlayerHero>)
    ensures Total(HeroReasons(hero, metas, missing, enemyPicked, account, pool)) <= MaxScore
  {
    match Find(metas, (m: HeroMeta) => m.id == hero.id)
    case None =>
    case Some(meta) =>
      BonusesAtMost(hero, meta, missing, enemyPicked, PoolEntry(account, pool, hero));
  }

  lemma BonusesAtMost(hero: Hero, meta: HeroMeta, missing: seq<string>, enemyPicked: bool, entry: Option<PlayerHero>)
    ensures Total(Bonuses(hero, meta, missing, enemyPicked, entry)) <= MaxScore
  {
    BonusesTotal(hero, meta, missing, enemyPicked, entry);
    RoleBonusTotal(hero, missing);
  }



  /** The score and reasons of one hero, built up bonus by bonus. */
  method ScoreHero(hero: Hero, metas: seq<HeroMeta>, missing: seq<string>, enemyPicked: bool,
                   account: Option<int>, pool: seq<PlayerHero>)
    returns (score: int, reasons: seq<Reason>)
    ensures reasons == HeroReasons(hero, metas, missing, enemyPicked, account, pool)
    ensures score == Total(reasons)
    ensures Find(metas, (m: HeroMeta) => m.id == hero.id).None? ==> score == 0 && reasons == []
  {
    var heroStat := Find(metas, (m: HeroMeta) => m.id == hero.id);
    if heroStat.None? {
      return 0, [];
    }
    var meta := heroStat.value;
    var playerHero := PoolEntry(account, pool, hero);
    score, reasons := ScoreBonuses(hero, meta, missing, enemyPicked, playerHero);
  }

  /** The bonuses of a hero with a meta-statistics entry, tried in order. */
  method ScoreBonuses(hero: Hero, meta: HeroMeta, missing: seq<string>, enemyPicked: bool,
                      playerHero: Option<PlayerHero>)
    returns (score: int, reasons: seq<Reason>)
    ensures reasons == Bonuses(hero, meta, missing, enemyPicked, playerHero)
    ensures score == Total(reasons)
  {
    score, reasons := AddMetaBonus(meta, 0, []);
    score, reasons := AddRoleBonus(hero, missing, score, reasons);
    score, reasons := AddCounterBonus(enemyPicked, score, reasons);
    score, reasons := AddFamiliarityBonus(playerHero, score, reasons);
    score, reasons := AddPopularityBonus(meta, score, reasons);
    assert [] + MetaBonus(meta) == MetaBonus(meta);
    BonusesTotal(hero, meta, missing, enemyPicked, playerHero);
  }

  /** Each step below adds one bonus to the score and its reason to the list. */
  method AddMetaBonus(meta: HeroMeta, score0: int, reasons0: seq<Reason>) returns (score: int, reasons: seq<Reason>)
    ensures reasons == reasons0 + MetaBonus(meta) && score == score0 + Total(MetaBonus(meta))
  {
    score, reasons := score0, reasons0;
    if meta.win7 > MetaWinThreshold {
      score := score + 20;
      reasons := reasons + [StrongInMeta(meta.win7)];
    } else {
      assert reasons == reasons0 + [];
    }
  }

  method AddRoleBonus(hero: Hero, missing: seq<string>, score0: int, reasons0: seq<Reason>)
    returns (score: int, reasons: seq<Reason>)
    ensures reasons == reasons0 + RoleBonus(hero, missing) && score == score0 + Total(RoleBonus(hero, missing))
  {
    score, reasons := score0, reasons0;
    var role := Find(hero.roles, (role: string) => role in missing);
    if role.Some? {
      score := score + 25;
      reasons := reasons + [FillsRole(role.value)];
    } else {
      assert reasons == reasons0 + [];
    }
    RoleBonusTotal(hero, missing);
  }

  method AddCounterBonus(enemyPicked: bool, score0: int, reasons0: seq<Reason>) returns (score: int, reasons: seq<Reason>)
    ensures reasons == reasons0 + CounterBonus(enemyPicked) && score == score0 + Total(CounterBonus(enemyPicked))
  {
    score, reasons := score0, reasons0;
    if enemyPicked {
      score := score + 10;
      reasons := reasons + [CounterPotential];
    } else {
      assert reasons == reasons0 + [];
    }
  }

  method AddFamiliarityBonus(playerHero: Option<PlayerHero>, score0: int, reasons0: seq<Reason>)
    returns (score: int, reasons: seq<Reason>)
    ensures reasons == reasons0 + FamiliarityBonus(playerHero) && score == score0 + Total(FamiliarityBonus(playerHero))
  {
    score, reasons := score0, reasons0;
    if playerHero.Some? && HighWinRate(playerHero.value) {
      score := score + 30;
      reasons := reasons + [HighPlayerWinRate(playerHero.value.win, playerHero.value.games)];
    } else if playerHero.Some? && playerHero.value.games >= ExperiencedGames {
      score := score + 15;
      reasons := reasons + [PlayerExperienced(playerHero.value.games)];
    } else {
      assert reasons == reasons0 + [];
    }
  }

  method AddPopularityBonus(meta: HeroMeta, score0: int, reasons0: seq<Reason>) returns (score: int, reasons: seq<Reason>)
    ensures reasons == reasons0 + PopularityBonus(meta) && score == score0 + Total(PopularityBonus(meta))
  {
    score, reasons := score0, reasons0;
    if meta.pick7 > PickRateThreshold {
      score := score + 10;
      reasons := reasons + [PopularPick];
    } else {
      assert reasons == reasons0 + [];
    }
  }

  // ---------------------------------------------------------------- ranking

  /** One scored hero. */
  datatype Suggestion = Suggestion(hero: Hero, score: int, reasons: seq<Reason>)

  function ScoreKey(s: Suggestion): real
  {
    s.score as real
  }

  /** The heroes of the list that neither team has picked, in list order. */
  function Available(heroes: seq<Hero>, picked: seq<int>): (r: seq<Hero>)
    ensures forall h :: h in r <==> h in heroes && h.id !in picked
  {
    Filter(heroes, (h: Hero) => h.id !in picked)
  }

  /** Availability is decided hero by hero, so the available heroes keep
      their hero-list order, and each listed copy of an unpicked hero stays. */
  lemma AvailableInListOrder(a: seq<Hero>, b: seq<Hero>, picked: seq<int>)
    ensures Available(a + b, picked) == Available(a, picked) + Available(b, picked)
    ensures forall h :: multiset(Available(a, picked))[h] == if h.id !in picked then multiset(a)[h] else 0
  {
    FilterConcat(a, b, (h: Hero) => h.id !in picked);
    FilterCounts(a, (h: Hero) => h.id !in picked);
  }

  /** One hero with its reasons and their total. */
  function ScoreOf(hero: Hero, metas: seq<HeroMeta>, missing: seq<string>, enemyPicked: bool,
                   account: Option<int>, pool: seq<PlayerHero>): Suggestion
  {
    var reasons := HeroReasons(hero, metas, missing, enemyPicked, account, pool);
    Suggestion(hero, Total(reasons), reasons)
  }

  /** Every available hero with its score and reasons, in list order. */
  function Scored(available: seq<Hero>, metas: seq<HeroMeta>, missing: seq<string>, enemyPicked: bool,
                  account: Option<int>, pool: seq<PlayerHero>): (r: seq<Suggestion>)
    ensures |r| == |available|
  {
    if available == [] then []
    else
      Scored(available[..|available| - 1], metas, missing, enemyPicked, account, pool)
        + [ScoreOf(available[|available| - 1], metas, missing, enemyPicked, account, pool)]
  }

  /** Entry `i` of `r` is hero `i` of `available`, scored. */
  predicate ScoredInOrder(available: seq<Hero>, metas: seq<HeroMeta>, missing: seq<string>,
                          enemyPicked: bool, account: Option<int>, pool: seq<PlayerHero>, r: seq<Suggestion>)
  {
    && |r| == |available|
    && forall i :: 0 <= i < |r| ==> r[i] == ScoreOf(available[i], metas, missing, enemyPicked, account, pool)
  }

  /** Each scored hero is the hero at the same place of the list, with its
      own reasons and their total. */
  lemma {:induction false} ScoredEntries(available: seq<Hero>, metas: seq<HeroMeta>, missing: seq<string>,
                                         enemyPicked: bool, account: Option<int>, pool: seq<PlayerHero>)
    ensures ScoredInOrder(available, metas, missing, enemyPicked, account, pool,
                          Scored(available, metas, missing, enemyPicked, account, pool))
  {
    if available != [] {
      var prefix := available[..|available| - 1];
      ScoredEntries(prefix, metas, missing, enemyPicked, account, pool);
      var prev := Scored(prefix, metas, missing, enemyPicked, account, pool);
      var last := ScoreOf(available[|available| - 1], metas, missing, enemyPicked, account, pool);
      var r := Scored(available, metas, missing, enemyPicked, account, pool);
      assert r == prev + [last];
      forall i | 0 <= i < |r|
        ensures r[i] == ScoreOf(available[i], metas, missing, enemyPicked, account, pool)
      {
        if i < |prev| {
          assert r[i] == prev[i];
          assert prefix[i] == available[i];
        } else {
          assert r[i] == last;
        }
      }
    }
  }

  datatype DraftResult =
    | HeroDataUnavailable
    | Suggestions(top: seq<Suggestion>, allyRoles: seq<string>, noPlayerHistory: bool)

  lemma ScoredSnoc(available: seq<Hero>, i: nat, metas: seq<HeroMeta>, missing: seq<string>, enemyPicked: bool,
                   account: Option<int>, pool: seq<PlayerHero>)
    requires i < |available|
    ensures Scored(available[..i + 1], metas, missing, enemyPicked, account, pool) ==
      Scored(available[..i], metas, missing, enemyPicked, account, pool) + [ScoreOf(available[i], metas, missing, enemyPicked, account, pool)]
  {
    assert available[..i + 1][..i] == available[..i];
  }

  /** One hero of the `map`: its score and reasons, as a suggestion. */
  method ScoreOne(hero: Hero, metas: seq<HeroMeta>, missing: seq<string>, enemyPicked: bool,
                  account: Option<int>, pool: seq<PlayerHero>)
    returns (s: Suggestion)
    ensures s == ScoreOf(hero, metas, missing, enemyPicked, account, pool)
  {
    var score, reasons := ScoreHero(hero, metas, missing, enemyPicked, account, pool);
    s := Suggestion(hero, score, reasons);
  }

  /** `availableHeroes.map(...)`: every available hero scored in turn. */
  method ScoreAll(available: seq<Hero>, metas: seq<HeroMeta>, missing: seq<string>, enemyPicked: bool,
                  account: Option<int>, pool: seq<PlayerHero>)
    returns (scores: seq<Suggestion>)
    ensures scores == Scored(available, metas, missing, enemyPicked, account, pool)
  {
    scores := [];
    for i := 0 to |available|
      invariant scores == Scored(available[..i], metas, missing, enemyPicked, account, pool)
    {
      var next := ScoreOne(available[i], metas, missing, enemyPicked, account, pool);
      ScoredSnoc(available, i, metas, missing, enemyPicked, account, pool);
      scores := scores + [next];
    }
    assert available[..|available|] == available;
  }

  /** `suggestDraftPicks` on the fetched data: the hero list, the hero meta
      statistics, both teams' picks, the optional account and the player's
      fetched hero records (empty when that fetch failed). */
  method SuggestDraftPicks(heroesCache: Option<seq<Hero>>, metaCache: Option<seq<HeroMeta>>,
                           allyHeroes: seq<int>, enemyHeroes: seq<int>,
                           account: Option<int>, fetched: seq<PlayerHero>)
    returns (result: DraftResult)
    ensures result.HeroDataUnavailable? <==> heroesCache.None? || metaCache.None?
    ensures result.Suggestions? ==>
      && result.allyRoles == TeamRoles(heroesCache.value, allyHeroes)
      && result.top == TopSuggestions(Scored(Available(heroesCache.value, allyHeroes + enemyHeroes),
                                             metaCache.value, MissingRoles(result.allyRoles), |enemyHeroes| > 0,
                                             account, PlayerPool(account, fetched)))
      && result.noPlayerHistory == (Truthy(account) && PlayerPool(account, fetched) == [])
  {
    if heroesCache.None? || metaCache.None? {
      return HeroDataUnavailable;
    }
    var available := Available(heroesCache.value, allyHeroes + enemyHeroes);
    var pool := PlayerPool(account, fetched);
    var allyRoles := AnalyzeTeamRoles(heroesCache, allyHeroes);
    var missing := MissingRoles(allyRoles);
    var enemyPicked := |enemyHeroes| > 0;
    var scores := ScoreAll(available, metaCache.value, missing, enemyPicked, account, pool);
    var top := TopSuggestions(scores);
    result := Suggestions(top, allyRoles, Truthy(account) && |pool| == 0);
  }

  /** `.sort((a, b) => b.score - a.score).slice(0, 10)`: at most ten,
      scores non-increasing, no left-out hero scoring above a suggested one,
      and heroes with equal scores in hero-list order. */
  function TopSuggestions(scored: seq<Suggestion>): (top: seq<Suggestion>)
    ensures |top| == if |scored| <= SuggestionCount then |scored| else SuggestionCount
    ensures forall s :: s in top ==> s in scored
    ensures forall i, j :: 0 <= i < j < |top| ==> top[i].score >= top[j].score
    ensures forall s, t :: s in scored && s !in top && t in top ==> s.score <= t.score
    ensures forall k :: Tied(top, ScoreKey, k) <= Tied(scored, ScoreKey, k)
  {
    TopFacts(scored, ScoreKey, SuggestionCount);
    ScoreOrder(scored, Take(SortDesc(scored, ScoreKey), SuggestionCount));
    Take(SortDesc(scored, ScoreKey), SuggestionCount)
  }

  /** Order and dominance by the sort key are order and dominance by score. */
  lemma ScoreOrder(scored: seq<Suggestion>, top: seq<Suggestion>)
    requires SortedDesc(top, ScoreKey)
    requires forall s, t :: s in scored && s !in top && t in top ==> ScoreKey(s) <= ScoreKey(t)
    ensures forall i, j :: 0 <= i < j < |top| ==> top[i].score >= top[j].score
    ensures forall s, t :: s in scored && s !in top && t in top ==> s.score <= t.score
  {
    forall i, j | 0 <= i < j < |top| ensures top[i].score >= top[j].score {
      assert ScoreKey(top[i]) >= ScoreKey(top[j]);
    }
    forall s, t | s in scored && s !in top && t in top ensures s.score <= t.score {
      assert ScoreKey(s) <= ScoreKey(t);
    }
  }

  /** What each suggestion is: an available hero, so one neither team has
      picked, with the score of its own reasons, between 0 and 95. */
  lemma {:induction false} SuggestionsValid(heroes: seq<Hero>, metas: seq<HeroMeta>, ally: seq<int>, enemy: seq<int>,
                                            missing: seq<string>, account: Option<int>, pool: seq<PlayerHero>)
    ensures forall s :: s in Scored(Available(heroes, ally + enemy), metas, missing, |enemy| > 0, account, pool) ==>
      && s.hero in heroes && s.hero.id !in ally && s.hero.id !in enemy
      && s.reasons == HeroReasons(s.hero, metas, missing, |enemy| > 0, account, pool)
      && s.score == Total(s.reasons) && 0 <= s.score <= MaxScore
  {
    var available := Available(heroes, ally + enemy);
    var scored := Scored(available, metas, missing, |enemy| > 0, account, pool);
    ScoredEntries(available, metas, missing, |enemy| > 0, account, pool);
    forall s | s in scored
      ensures && s.hero in heroes && s.hero.id !in ally && s.hero.id !in enemy
              && s.reasons == HeroReasons(s.hero, metas, missing, |enemy| > 0, account, pool)
              && s.score == Total(s.reasons) && 0 <= s.score <= MaxScore
    {
      var i :| 0 <= i < |scored| && scored[i] == s;
      assert s.hero == available[i] && s.hero in available;
      ScoreRange(s.hero, metas, missing, |enemy| > 0, account, pool);
    }
  }

  /** A hero at 53% meta win rate and 20% pick rate that fills a missing role,
      against a non-empty enemy team and without player data, scores
      20 + 25 + 10 + 10 = 65 with four reasons. */
  lemma ExampleScore()
    ensures var rs := Bonuses(Hero(1, "Anti-Mage", ["Carry"]), HeroMeta(1, 53.0, 20.0), FixedRoles, true, None);
      Total(rs) == 65 && |rs| == 4
  {
    var hero := Hero(1, "Anti-Mage", ["Carry"]);
    var meta := HeroMeta(1, 53.0, 20.0);
    assert hero.roles[0] in FixedRoles;
    BonusesSum(hero, meta, FixedRoles, true, None);
  }
}

=== FILE: entries.dfy ===
/** `Object.entries` on a dictionary whose keys are integers. JavaScript
    enumerates integer-like (array index) keys in ascending numeric order,
    whatever the order in which they were added. */
module Entries {

  predicate StrictlyAscending<V>(es: seq<(int, V)>)
  {
    forall i, j :: 0 <= i < j < |es| ==> es[i].0 < es[j].0
  }

  lemma NonEmptyHasElement(s: set<int>)
    requires s != {}
    ensures exists k :: k in s
  {
    if forall k :: k !in s {
      assert false;
    }
  }

  lemma {:induction false} MinimumExists(s: set<int>)
    requires s != {}
    ensures exists k :: k in s && forall j :: j in s ==> k <= j
    decreases |s|
  {
    NonEmptyHasElement(s);
    var x :| x in s;
    if s != {x} {
      var rest := s - {x};
      MinimumExists(rest);
      var m :| m in rest && forall j :: j in rest ==> m <= j;
      var k := if x < m then x else m;
      forall j | j in s ensures k <= j {
        if j != x { assert j in rest; }
      }
      assert k in s;
    } else {
      assert forall j :: j in s ==> x <= j;
    }
  }

  /** `es` lists, in ascending key order, entries of `m` that are not in `rest`
      and lie below every key of `rest`; every key of `m` is listed or in `rest`. */
  ghost predicate Progress<V>(m: map<int, V>, rest: set<int>, es: seq<(int, V)>)
  {
    && rest <= m.Keys
    && StrictlyAscending(es)
    && (forall i :: 0 <= i < |es| ==> es[i].0 in m && es[i].0 !in rest && es[i].1 == m[es[i].0])
    && (forall i, k :: 0 <= i < |es| && k in rest ==> es[i].0 < k)
    && (forall k :: k in m ==> k in rest || exists i :: 0 <= i < |es| && es[i].0 == k)
  }

  /** Moving the smallest key of `rest` to the end of `es` keeps `Progress`. */
  lemma ProgressStep<V>(m: map<int, V>, rest: set<int>, es: seq<(int, V)>, k: int)
    requires Progress(m, rest, es)
    requires k in rest && forall j :: j in rest ==> k <= j
    ensures Progress(m, rest - {k}, es + [(k, m[k])])
  {
    StepOrder(rest, es, k, m[k]);
    StepCovers(m, rest, es, k);
  }

  lemma StepOrder<V>(rest: set<int>, es: seq<(int, V)>, k: int, v: V)
    requires StrictlyAscending(es)
    requires forall i, j :: 0 <= i < |es| && j in rest ==> es[i].0 < j
    requires k in rest && forall j :: j in rest ==> k <= j
    ensures StrictlyAscending(es + [(k, v)])
    ensures forall i, j :: 0 <= i < |es + [(k, v)]| && j in rest - {k} ==> (es + [(k, v)])[i].0 < j
  {
  }

  lemma StepCovers<V>(m: map<int, V>, rest: set<int>, es: seq<(int, V)>, k: int)
    requires k in m && k in rest
    requires forall key :: key in m ==> key in rest || exists i :: 0 <= i < |es| && es[i].0 == key
    ensures forall key :: key in m ==>
              key in rest - {k} || exists i :: 0 <= i < |es + [(k, m[k])]| && (es + [(k, m[k])])[i].0 == key
  {
    var es' := es + [(k, m[k])];
    forall key | key in m && key !in rest - {k} ensures exists i :: 0 <= i < |es'| && es'[i].0 == key {
      if key == k {
        assert es'[|es|].0 == key;
      } else {
        var i :| 0 <= i < |es| && es[i].0 == key;
        assert es'[i].0 == key;
      }
    }
  }

  /** The entries of `m`, ascending by key: every key exactly once, with its value. */
  method IntKeyedEntries<V>(m: map<int, V>) returns (es: seq<(int, V)>)
    ensures StrictlyAscending(es)
    ensures forall i :: 0 <= i < |es| ==> es[i].0 in m && es[i].1 == m[es[i].0]
    ensures forall k :: k in m ==> exists i :: 0 <= i < |es| && es[i].0 == k
  {
    es := [];
    var rest := m.Keys;
    while rest != {}
      invariant Progress(m, rest, es)
      decreases |rest|
    {
      MinimumExists(rest);
      var k :| k in rest && forall j :: j in rest ==> k <= j;
      ProgressStep(m, rest, es, k);
      es := es + [(k, m[k])];
      rest := rest - {k};
    }
  }
}

=== FILE: items.dfy ===
/** Item build analysis: how often each item ends in the player's final six
    slots over the sampled matches, and the rankings and playstyle derived
    from those counts. */
module ItemBuilds {

  import opened Records
  import opened Lists
  import opened Ranking
  import opened Text
  import opened Lookups
  import opened Entries

  const FrequentListSize := 15
  const WinRateListSize := 10
  const MinRankedGames := 2
  const MinWinRateGames := 3

  /** The names that mark a farming item and a fighting item. */
  const FarmingItemNames: seq<string> :=
    ["Battle Fury", "Radiance", "Maelstrom", "Mjollnir", "Hand of Midas", "Battlefury"]
  const FightingItemNames: seq<string> :=
    ["Black King Bar", "Blade Mail", "Drum of Endurance", "Phase Boots", "Magic Wand", "Diffusal Blade"]

  /** Per-item tally kept in the dictionary. */
  datatype Tally = Tally(games: nat, wins: nat)

  /** An item with its name and tally, as ranked. */
  datatype ItemStat = ItemStat(itemId: int, itemName: string, games: nat, wins: nat)

  datatype Playstyle = Farming | Fighting | Balanced

  datatype ItemReport = ItemReport(
    sampleSize: nat,
    ranked: seq<ItemStat>,
    highWinRate: seq<ItemStat>,
    core: seq<ItemStat>,
    farmingItems: seq<ItemStat>,
    fightingItems: seq<ItemStat>,
    farmingGames: nat,
    fightingGames: nat,
    playstyle: Playstyle)

  datatype ItemBuildResult = NoDetailedData | Report(report: ItemReport)

  /** `item_0` to `item_5`. */
  function Slots(m: DetailedMatch): seq<Option<int>>
  {
    [m.item0, m.item1, m.item2, m.item3, m.item4, m.item5]
  }

  predicate Won(m: DetailedMatch)
  {
    IsWin(m.playerSlot, m.radiantWin)
  }

  /** How many of `slots` hold item `id`; absent slots and ids of 0 or less
      are never counted. */
  function SlotCount(slots: seq<Option<int>>, id: int): nat
  {
    if slots == [] then 0
    else SlotCount(slots[..|slots| - 1], id) + (if id > 0 && slots[|slots| - 1] == Some(id) then 1 else 0)
  }

  /** Appearances of item `id` in the final slots over all matches. */
  function ItemGames(ms: seq<DetailedMatch>, id: int): nat
  {
    if ms == [] then 0
    else ItemGames(ms[..|ms| - 1], id) + SlotCount(Slots(ms[|ms| - 1]), id)
  }

  /** The same, counting only matches the player won. */
  function ItemWins(ms: seq<DetailedMatch>, id: int): nat
  {
    if ms == [] then 0
    else ItemWins(ms[..|ms| - 1], id) + (if Won(ms[|ms| - 1]) then SlotCount(Slots(ms[|ms| - 1]), id) else 0)
  }

  lemma {:induction false} WinsAtMostGames(ms: seq<DetailedMatch>, id: int)
    ensures ItemWins(ms, id) <= ItemGames(ms, id)
  {
    if ms != [] {
      WinsAtMostGames(ms[..|ms| - 1], id);
    }
  }

  lemma {:induction false} NoSlotCountForEmptySlotId(slots: seq<Option<int>>, id: int)
    requires id <= 0
    ensures SlotCount(slots, id) == 0
  {
    if slots != [] {
      NoSlotCountForEmptySlotId(slots[..|slots| - 1], id);
    }
  }

  /** Item id 0 (an empty slot) and negative ids are never counted. */
  lemma {:induction false} NoGamesForEmptySlotId(ms: seq<DetailedMatch>, id: int)
    requires id <= 0
    ensures ItemGames(ms, id) == 0
  {
    if ms != [] {
      NoGamesForEmptySlotId(ms[..|ms| - 1], id);
      NoSlotCountForEmptySlotId(Slots(ms[|ms| - 1]), id);
    }
  }

  /** A dictionary entry, or the fresh `{ games: 0, wins: 0 }`. */
  function Get(stats: map<int, Tally>, id: int): Tally
  {
    if id in stats then stats[id] else Tally(0, 0)
  }

  /** `next` holds `stats` plus the counts of `slots`. */
  ghost predicate AddsSlots(next: map<int, Tally>, stats: map<int, Tally>, slots: seq<Option<int>>, won: bool)
  {
    && (forall id :: id in next <==> id in stats || SlotCount(slots, id) > 0)
    && (forall id :: Get(next, id) == Tally(Get(stats, id).games + SlotCount(slots, id),
                                            Get(stats, id).wins + (if won then SlotCount(slots, id) else 0)))
  }

  /** Counting one more slot. */
  lemma SlotStep(stats: map<int, Tally>, next: map<int, Tally>, slots: seq<Option<int>>, k: nat, won: bool,
                 after: map<int, Tally>)
    requires k < |slots| && AddsSlots(next, stats, slots[..k], won)
    requires slots[k].Some? && slots[k].value > 0 ==>
      var id := slots[k].value; var t := Get(next, id);
      after == next[id := Tally(t.games + 1, if won then t.wins + 1 else t.wins)]
    requires !(slots[k].Some? && slots[k].value > 0) ==> after == next
    ensures AddsSlots(after, stats, slots[..k + 1], won)
  {
    assert slots[..k + 1][..k] == slots[..k];
    assert slots[..k + 1][k] == slots[k];
  }

  /** One match's final slots added to the dictionary, slot by slot. */
  method TallyMatch(stats: map<int, Tally>, slots: seq<Option<int>>, won: bool) returns (next: map<int, Tally>)
    ensures AddsSlots(next, stats, slots, won)
  {
    next := stats;
    for k := 0 to |slots|
      invariant AddsSlots(next, stats, slots[..k], won)
    {
      ghost var before := next;
      if slots[k].Some? && slots[k].value > 0 {
        var id := slots[k].value;
        var t := Get(next, id);
        next := next[id := Tally(t.games + 1, if won then t.wins + 1 else t.wins)];
      }
      SlotStep(stats, before, slots, k, won, next);
    }
    assert slots[..|slots|] == slots;
  }

  /** The `itemStats` dictionary filled match by match. */
  method TallyItems(ms: seq<DetailedMatch>) returns (stats: map<int, Tally>)
    ensures forall id :: id in stats <==> ItemGames(ms, id) > 0
    ensures forall id :: id in stats ==> stats[id] == Tally(ItemGames(ms, id), ItemWins(ms, id))
  {
    stats := map[];
    for i := 0 to |ms|
      invariant forall id :: id in stats <==> ItemGames(ms[..i], id) > 0
      invariant forall id :: Get(stats, id) == Tally(ItemGames(ms[..i], id), ItemWins(ms[..i], id))
    {
      assert ms[..i + 1][..i] == ms[..i];
      stats := TallyMatch(stats, Slots(ms[i]), Won(ms[i]));
    }
    assert ms[..|ms|] == ms;
  }

  /** Each dictionary entry as an item with its catalogue name. */
  function ToItemStats(es: seq<(int, Tally)>, cache: Option<map<string, GameItem>>): (r: seq<ItemStat>)
    ensures |r| == |es|
    ensures forall i :: 0 <= i < |es| ==>
      r[i] == ItemStat(es[i].0, ItemName(cache, es[i].0), es[i].1.games, es[i].1.wins)
  {
    seq(|es|, i requires 0 <= i < |es| => ItemStat(es[i].0, ItemName(cache, es[i].0), es[i].1.games, es[i].1.wins))
  }

  function GamesKey(it: ItemStat): real
  {
    it.games as real
  }

  /** `wins / games`; every ranked item has at least one game. */
  function WinRateKey(it: ItemStat): real
  {
    if it.games == 0 then 0.0 else it.wins as real / it.games as real
  }

  function IdRank(it: ItemStat): int
  {
    it.itemId
  }

  predicate HasRankedGames(it: ItemStat)
  {
    it.games >= MinRankedGames
  }

  predicate HasWinRateGames(it: ItemStat)
  {
    it.games >= MinWinRateGames
  }

  /** `sortedItems`: the items with at least two games, most games first.
      Given the items in ascending id order, as `Object.entries` lists them,
      items with equal games come out in ascending id order. */
  function FrequencyRanking(items: seq<ItemStat>): (r: seq<ItemStat>)
    ensures forall it :: it in r <==> it in items && it.games >= MinRankedGames
    ensures SortedDesc(r, GamesKey)
    ensures (forall i, j :: 0 <= i < j < |items| ==> items[i].itemId < items[j].itemId) ==>
              LexSorted(r, GamesKey, IdRank)
  {
    var eligible := Filter(items, HasRankedGames);
    SortDescSorted(eligible, GamesKey);
    TiesByAscendingId(items);
    var r := SortDesc(eligible, GamesKey);
    assert forall it :: it in r <==> it in multiset(r);
    assert forall it :: it in eligible <==> it in multiset(eligible);
    r
  }

  lemma TiesByAscendingId(items: seq<ItemStat>)
    ensures (forall i, j :: 0 <= i < j < |items| ==> items[i].itemId < items[j].itemId) ==>
              LexSorted(SortDesc(Filter(items, HasRankedGames), GamesKey), GamesKey, IdRank)
  {
    if forall i, j :: 0 <= i < j < |items| ==> items[i].itemId < items[j].itemId {
      FilterAscending(items, HasRankedGames, IdRank);
      SortDescLexSorted(Filter(items, HasRankedGames), GamesKey, IdRank);
    }
  }

  /** The first fifteen of the frequency ranking are shown. */
  function MostFrequent(ranked: seq<ItemStat>): (r: seq<ItemStat>)
    ensures r <= ranked && |r| == if |ranked| < FrequentListSize then |ranked| else FrequentListSize
  {
    Take(ranked, FrequentListSize)
  }

  /** Highest win rate: items with at least three games, best win rate first,
      ten at most; equal win rates keep their frequency-ranking order. */
  function WinRateRanking(ranked: seq<ItemStat>): (r: seq<ItemStat>)
    ensures |r| == if |Filter(ranked, HasWinRateGames)| <= WinRateListSize then |Filter(ranked, HasWinRateGames)| else WinRateListSize
    ensures forall it :: it in r ==> it in ranked && it.games >= MinWinRateGames
    ensures forall i, j :: 0 <= i < j < |r| ==> WinRateKey(r[i]) >= WinRateKey(r[j])
    ensures forall it, w :: it in ranked && it.games >= MinWinRateGames && it !in r && w in r ==>
              WinRateKey(it) <= WinRateKey(w)
    ensures forall k :: Tied(r, WinRateKey, k) <= Tied(Filter(ranked, HasWinRateGames), WinRateKey, k)
  {
    var eligible := Filter(ranked, HasWinRateGames);
    TopFacts(eligible, WinRateKey, WinRateListSize);
    Take(SortDesc(eligible, WinRateKey), WinRateListSize)
  }

  /** `Math.ceil(n * 0.5)`. */
  function HalfRoundedUp(n: nat): (h: nat)
    ensures 2 * h >= n && 2 * h <= n + 1
  {
    (n + 1) / 2
  }

  /** Core items: in at least half of the sampled matches (rounded up) and a
      win rate of at least 50%. */
  function CoreItems(ranked: seq<ItemStat>, sampleSize: nat): (r: seq<ItemStat>)
    ensures forall it :: it in r <==> it in ranked && 2 * it.games >= sampleSize && 2 * it.wins >= it.games
  {
    Filter(ranked, (it: ItemStat) => it.games >= HalfRoundedUp(sampleSize) && it.wins * 100 >= 50 * it.games)
  }

  /** `names.some(n => name.toLowerCase().includes(n.toLowerCase()))`. */
  predicate MatchesAnyName(name: string, names: seq<string>)
  {
    exists k :: 0 <= k < |names| && ContainsIgnoringCase(name, names[k])
  }

  predicate IsFarmingItem(it: ItemStat)
  {
    MatchesAnyName(it.itemName, FarmingItemNames)
  }

  predicate IsFightingItem(it: ItemStat)
  {
    MatchesAnyName(it.itemName, FightingItemNames)
  }

  /** A name with a listed name anywhere inside it is classified by that
      list, such as a recipe named `Recipe: Black King Bar`. */
  lemma ListedNameInsideMatches(pre: string, post: string, names: seq<string>, k: nat)
    requires k < |names|
    ensures MatchesAnyName(pre + names[k] + post, names)
  {
    var name := pre + names[k] + post;
    LowerConcat(pre, names[k]);
    LowerConcat(pre + names[k], post);
    assert Lower(name) == Lower(pre) + Lower(names[k]) + Lower(post);
    assert OccursAt(Lower(name), Lower(names[k]), |Lower(pre)|);
    ContainsIffOccurs(Lower(name), Lower(names[k]));
  }

  /** The comparison ignores case: two names that differ only in the case
      of their letters, such as `BLACK KING BAR` and `Black King Bar`, are
      classified alike. */
  lemma CaseBlindClassification(a: string, b: string, names: seq<string>)
    requires |a| == |b| && forall i :: 0 <= i < |a| ==> LowerChar(a[i]) == LowerChar(b[i])
    ensures MatchesAnyName(a, names) <==> MatchesAnyName(b, names)
  {
    assert Lower(a) == Lower(b);
  }

  /** The characters of a lower-cased fallback name `item id <n>`. */
  predicate FallbackChar(c: char)
  {
    c == 'i' || c == 't' || c == 'e' || c == 'm' || c == ' ' || c == 'd' || c == '-' || IsDigit(c)
  }

  lemma FallbackNameChars(itemId: int)
    ensures forall c :: c in Lower("Item ID " + IntToString(itemId)) ==> FallbackChar(c)
  {
    var name := "Item ID " + IntToString(itemId);
    FallbackNameRawChars(itemId);
    forall c | c in Lower(name) ensures FallbackChar(c) {
      var k :| 0 <= k < |Lower(name)| && Lower(name)[k] == c;
      assert c == LowerChar(name[k]);
    }
  }

  lemma FallbackNameRawChars(itemId: int)
    ensures forall k :: 0 <= k < |"Item ID " + IntToString(itemId)| ==>
      FallbackChar(LowerChar(("Item ID " + IntToString(itemId))[k]))
  {
    var name := "Item ID " + IntToString(itemId);
    IntToStringChars(itemId);
    PrefixChars();
    forall k | 0 <= k < |name| ensures FallbackChar(LowerChar(name[k])) {
      if k >= 8 {
        assert name[k] == IntToString(itemId)[k - 8];
      } else {
        assert name[k] == "Item ID "[k];
      }
    }
  }

  lemma PrefixChars()
    ensures forall k :: 0 <= k < |"Item ID "| ==> FallbackChar(LowerChar("Item ID "[k]))
  {
  }

  /** A name lacking the lower case of one of the needle's characters does
      not contain the needle, ignoring case. */
  lemma NotMatched(hay: string, needle: string, idx: nat)
    requires idx < |needle| && LowerChar(needle[idx]) !in Lower(hay)
    ensures !ContainsIgnoringCase(hay, needle)
  {
    assert Lower(needle)[idx] == LowerChar(needle[idx]);
    MissingCharNotContained(Lower(hay), Lower(needle), LowerChar(needle[idx]));
  }

  /** An item the catalogue cannot name, shown as `Item ID <n>`, is neither a
      farming nor a fighting item, so it never sways the playstyle. */
  lemma FallbackNameUnclassified(itemId: int)
    ensures !MatchesAnyName("Item ID " + IntToString(itemId), FarmingItemNames)
    ensures !MatchesAnyName("Item ID " + IntToString(itemId), FightingItemNames)
  {
    var name := "Item ID " + IntToString(itemId);
    FallbackNameChars(itemId);
    forall k | 0 <= k < |FarmingItemNames| ensures !ContainsIgnoringCase(name, FarmingItemNames[k]) {
      // Battle Fury, Radiance, Maelstrom, Mjollnir, Hand of Midas, Battlefury:
      // b, r, a, j, h, b never occur in a fallback name.
      var idx := if k == 2 || k == 3 then 1 else 0;
      assert !FallbackChar(LowerChar(FarmingItemNames[k][idx]));
      NotMatched(name, FarmingItemNames[k], idx);
    }
    forall k | 0 <= k < |FightingItemNames| ensures !ContainsIgnoringCase(name, FightingItemNames[k]) {
      // Black King Bar, Blade Mail, Drum of Endurance, Phase Boots, Magic Wand,
      // Diffusal Blade: b, b, r, p, a, f.
      var idx := if k == 2 || k == 4 then 1 else if k == 5 then 2 else 0;
      assert !FallbackChar(LowerChar(FightingItemNames[k][idx]));
      NotMatched(name, FightingItemNames[k], idx);
    }
  }

  /** `items.reduce((sum, item) => sum + item.games, 0)`. */
  function SumGames(items: seq<ItemStat>): nat
  {
    if items == [] then 0 else SumGames(items[..|items| - 1]) + items[|items| - 1].games
  }

  /** The sum over a concatenation is the sum of the sums. */
  lemma {:induction false} SumGamesConcat(a: seq<ItemStat>, b: seq<ItemStat>)
    ensures SumGames(a + b) == SumGames(a) + SumGames(b)
    decreases |b|
  {
    if b == [] {
      assert a + b == a;
    } else {
      assert (a + b)[..|a + b| - 1] == a + b[..|b| - 1];
      SumGamesConcat(a, b[..|b| - 1]);
    }
  }

  /** The sum is 0 exactly when every item has 0 games. */
  lemma {:induction false} SumGamesZero(items: seq<ItemStat>)
    ensures SumGames(items) == 0 <==> forall i :: 0 <= i < |items| ==> items[i].games == 0
  {
    if items != [] {
      SumGamesZero(items[..|items| - 1]);
      assert forall i :: 0 <= i < |items| - 1 ==> items[..|items| - 1][i] == items[i];
    }
  }

  /** With no farming and no fighting item among the ranked items the
      label is balanced, whatever the counts. */
  lemma UnclassifiedRankingIsBalanced(sampleSize: nat, ranked: seq<ItemStat>)
    requires forall it :: it in ranked ==> !IsFarmingItem(it) && !IsFightingItem(it)
    ensures BuildReport(sampleSize, ranked).playstyle == Balanced
    ensures BuildReport(sampleSize, ranked).farmingGames == BuildReport(sampleSize, ranked).fightingGames == 0
  {
    if Filter(ranked, IsFarmingItem) != [] {
      assert Filter(ranked, IsFarmingItem)[0] in Filter(ranked, IsFarmingItem);
    }
    if Filter(ranked, IsFightingItem) != [] {
      assert Filter(ranked, IsFightingItem)[0] in Filter(ranked, IsFightingItem);
    }
  }

  /** The playstyle label decided by the two game sums. */
  function PlaystyleOf(farmingGames: nat, fightingGames: nat): (p: Playstyle)
    ensures p == Farming <==> farmingGames > fightingGames
    ensures p == Fighting <==> fightingGames > farmingGames
    ensures p == Balanced <==> farmingGames == fightingGames
  {
    if farmingGames > fightingGames && farmingGames > 0 then Farming
    else if fightingGames > farmingGames && fightingGames > 0 then Fighting
    else Balanced
  }

  /** Everything derived from the frequency ranking. */
  function BuildReport(sampleSize: nat, ranked: seq<ItemStat>): ItemReport
  {
    var farming := Filter(ranked, IsFarmingItem);
    var fighting := Filter(ranked, IsFightingItem);
    ItemReport(
      sampleSize, ranked, WinRateRanking(ranked), CoreItems(ranked, sampleSize),
      farming, fighting, SumGames(farming), SumGames(fighting),
      PlaystyleOf(SumGames(farming), SumGames(fighting)))
  }

  /** The frequency ranking of the sampled matches: exactly the items with
      at least two games, each with its own counts and catalogue name, most
      games first and ties by ascending item id. */
  ghost predicate RanksItems(ms: seq<DetailedMatch>, cache: Option<map<string, GameItem>>, ranked: seq<ItemStat>)
  {
    && (forall it :: it in ranked ==>
          && it.itemId > 0
          && it.games == ItemGames(ms, it.itemId) >= MinRankedGames
          && it.wins == ItemWins(ms, it.itemId)
          && it.itemName == ItemName(cache, it.itemId))
    && (forall id :: ItemGames(ms, id) >= MinRankedGames ==> exists it :: it in ranked && it.itemId == id)
    && LexSorted(ranked, GamesKey, IdRank)
  }

  /** Every ranked item carries its own counts and catalogue name. */
  lemma RankedItemFacts(ms: seq<DetailedMatch>, cache: Option<map<string, GameItem>>,
                        stats: map<int, Tally>, es: seq<(int, Tally)>)
    requires forall id :: id in stats ==> stats[id] == Tally(ItemGames(ms, id), ItemWins(ms, id))
    requires forall i :: 0 <= i < |es| ==> es[i].0 in stats && es[i].1 == stats[es[i].0]
    ensures forall it :: it in FrequencyRanking(ToItemStats(es, cache)) ==>
          && it.itemId > 0
          && it.games == ItemGames(ms, it.itemId) >= MinRankedGames
          && it.wins == ItemWins(ms, it.itemId)
          && it.itemName == ItemName(cache, it.itemId)
  {
    var items := ToItemStats(es, cache);
    forall it | it in FrequencyRanking(items)
      ensures && it.itemId > 0
              && it.games == ItemGames(ms, it.itemId) >= MinRankedGames
              && it.wins == ItemWins(ms, it.itemId)
              && it.itemName == ItemName(cache, it.itemId)
    {
      var i :| 0 <= i < |items| && items[i] == it;
      if it.itemId <= 0 {
        NoGamesForEmptySlotId(ms, it.itemId);
      }
    }
  }

  /** Every item with at least two games is ranked. */
  lemma RankedComplete(ms: seq<DetailedMatch>, cache: Option<map<string, GameItem>>,
                       stats: map<int, Tally>, es: seq<(int, Tally)>)
    requires forall id :: id in stats <==> ItemGames(ms, id) > 0
    requires forall id :: id in stats ==> stats[id] == Tally(ItemGames(ms, id), ItemWins(ms, id))
    requires forall i :: 0 <= i < |es| ==> es[i].0 in stats && es[i].1 == stats[es[i].0]
    requires forall k :: k in stats ==> exists i :: 0 <= i < |es| && es[i].0 == k
    ensures forall id :: ItemGames(ms, id) >= MinRankedGames ==>
          exists it :: it in FrequencyRanking(ToItemStats(es, cache)) && it.itemId == id
  {
    var items := ToItemStats(es, cache);
    forall id | ItemGames(ms, id) >= MinRankedGames
      ensures exists it :: it in FrequencyRanking(items) && it.itemId == id
    {
      var i :| 0 <= i < |es| && es[i].0 == id;
      assert items[i] in FrequencyRanking(items);
    }
  }

  /** The ranking built from the dictionary's entries has the promised shape. */
  lemma RankingOfEntries(ms: seq<DetailedMatch>, cache: Option<map<string, GameItem>>,
                         stats: map<int, Tally>, es: seq<(int, Tally)>)
    requires forall id :: id in stats <==> ItemGames(ms, id) > 0
    requires forall id :: id in stats ==> stats[id] == Tally(ItemGames(ms, id), ItemWins(ms, id))
    requires StrictlyAscending(es)
    requires forall i :: 0 <= i < |es| ==> es[i].0 in stats && es[i].1 == stats[es[i].0]
    requires forall k :: k in stats ==> exists i :: 0 <= i < |es| && es[i].0 == k
    ensures RanksItems(ms, cache, FrequencyRanking(ToItemStats(es, cache)))
  {
    RankedItemFacts(ms, cache, stats, es);
    RankedComplete(ms, cache, stats, es);
    RankedOrder(es, cache);
  }

  /** Entries in ascending key order give ties by ascending item id. */
  lemma RankedOrder(es: seq<(int, Tally)>, cache: Option<map<string, GameItem>>)
    requires StrictlyAscending(es)
    ensures LexSorted(FrequencyRanking(ToItemStats(es, cache)), GamesKey, IdRank)
  {
    var items := ToItemStats(es, cache);
    assert forall i, j :: 0 <= i < j < |items| ==> items[i].itemId < items[j].itemId;
  }

  /** The item build analysis of the detailed matches that could be fetched. */
  method AnalyzeItemBuilds(ms: seq<DetailedMatch>, cache: Option<map<string, GameItem>>)
    returns (result: ItemBuildResult)
    ensures result.NoDetailedData? <==> ms == []
    ensures result.Report? ==> result.report == BuildReport(|ms|, result.report.ranked)
    ensures result.Report? ==> RanksItems(ms, cache, result.report.ranked)
  {
    if ms == [] {
      return NoDetailedData;
    }
    var stats := TallyItems(ms);
    var es := IntKeyedEntries(stats);
    var items := ToItemStats(es, cache);
    var ranked := FrequencyRanking(items);
    RankingOfEntries(ms, cache, stats, es);
    result := Report(BuildReport(|ms|, ranked));
  }
}

=== FILE: lists.dfy ===
/** The array operations the statistics code chains together:
    `filter`, `slice(0, n)` and `find`. */
module Lists {

  import opened Records

  /** `s.filter(p)`: the elements satisfying `p`, in their original order. */
  function Filter<T(!new)>(s: seq<T>, p: T -> bool): (r: seq<T>)
    ensures |r| <= |s|
    ensures forall x :: x in r <==> x in s && p(x)
  {
    if s == [] then []
    else
      assert s == [s[0]] + s[1..];
      (if p(s[0]) then [s[0]] else []) + Filter(s[1..], p)
  }

  /** Each element satisfying `p` is kept as often as it occurs, and no
      other element is kept. */
  lemma {:induction false} FilterCounts<T(!new)>(s: seq<T>, p: T -> bool)
    ensures forall x :: multiset(Filter(s, p))[x] == if p(x) then multiset(s)[x] else 0
  {
    if s != [] {
      assert s == [s[0]] + s[1..];
      FilterCounts(s[1..], p);
    }
  }

  /** Filtering works piece by piece, so the kept elements stay in their
      input order: together with `FilterCounts` this fixes `Filter`. */
  lemma {:induction false} FilterConcat<T(!new)>(a: seq<T>, b: seq<T>, p: T -> bool)
    ensures Filter(a + b, p) == Filter(a, p) + Filter(b, p)
  {
    if a == [] {
      assert a + b == b;
    } else {
      var head := if p(a[0]) then [a[0]] else [];
      assert (a + b)[0] == a[0] && (a + b)[1..] == a[1..] + b;
      assert Filter(a + b, p) == head + Filter(a[1..] + b, p);
      assert Filter(a, p) == head + Filter(a[1..], p);
      FilterConcat(a[1..], b, p);
      assert head + (Filter(a[1..], p) + Filter(b, p)) == (head + Filter(a[1..], p)) + Filter(b, p);
    }
  }

  /** `s.slice(0, n)`: the first `n` elements, or all of them. */
  function Take<T>(s: seq<T>, n: nat): (r: seq<T>)
    ensures r <= s
    ensures |r| == if |s| <= n then |s| else n
  {
    if |s| <= n then s else s[..n]
  }

  /** `s.findIndex(p)`, with |s| standing for "not found". */
  function FindIndex<T>(s: seq<T>, p: T -> bool): (i: nat)
    ensures i <= |s|
    ensures i < |s| ==> p(s[i])
    ensures forall j :: 0 <= j < i ==> !p(s[j])
  {
    if s == [] then 0
    else if p(s[0]) then 0
    else 1 + FindIndex(s[1..], p)
  }

  /** `s.find(p)`: the first element satisfying `p`, if any. */
  function Find<T>(s: seq<T>, p: T -> bool): (r: Option<T>)
    ensures r.None? <==> forall i :: 0 <= i < |s| ==> !p(s[i])
    ensures r.Some? ==> exists i :: 0 <= i < |s| && s[i] == r.value && p(s[i]) &&
                                   forall j :: 0 <= j < i ==> !p(s[j])
  {
    var i := FindIndex(s, p);
    if i < |s| then Some(s[i]) else None
  }
}

=== FILE: lookups.dfy ===
/** Name lookups in the cached reference data, with their fallbacks. */
module Lookups {

  import opened Records
  import opened Lists
  import opened Text

  /** `heroes.find(h => h.id === heroId)`. */
  function FindHero(heroes: seq<Hero>, heroId: int): (r: Option<Hero>)
    ensures r.None? <==> forall i :: 0 <= i < |heroes| ==> heroes[i].id != heroId
    ensures r.Some? ==> r.value in heroes && r.value.id == heroId
    ensures r.Some? ==> exists i :: 0 <= i < |heroes| && heroes[i] == r.value &&
                                   forall j :: 0 <= j < i ==> heroes[j].id != heroId
  {
    Find(heroes, (h: Hero) => h.id == heroId)
  }

  /** `getHeroName`: the localized name of the first cached hero with the id,
      or `Hero ID <id>` when the cache is empty or knows no such hero. */
  function HeroName(cache: Option<seq<Hero>>, heroId: int): (name: string)
    ensures cache.Some? ==>
      forall i :: 0 <= i < |cache.value| && cache.value[i].id == heroId &&
                  (forall j :: 0 <= j < i ==> cache.value[j].id != heroId) ==>
        name == cache.value[i].localizedName
    ensures (cache.None? || forall h :: h in cache.value ==> h.id != heroId) ==>
      name == "Hero ID " + IntToString(heroId)
  {
    match cache
    case None => "Hero ID " + IntToString(heroId)
    case Some(heroes) =>
      match Find(heroes, (h: Hero) => h.id == heroId)
      case Some(hero) => hero.localizedName
      case None => "Hero ID " + IntToString(heroId)
  }

  /** `getItemName`: non-positive ids are an empty slot; otherwise the display
      name of the catalogue entry keyed by the id's decimal spelling, or
      `Item ID <id>` when there is no catalogue or no such entry. */
  function ItemName(cache: Option<map<string, GameItem>>, itemId: int): (name: string)
    ensures itemId <= 0 ==> name == "Empty Slot"
    ensures itemId > 0 && cache.Some? && IntToString(itemId) in cache.value ==>
      name == cache.value[IntToString(itemId)].dname
    ensures itemId > 0 && (cache.None? || IntToString(itemId) !in cache.value) ==>
      name == "Item ID " + IntToString(itemId)
  {
    if cache.None? || itemId <= 0 then
      (if itemId > 0 then "Item ID " + IntToString(itemId) else "Empty Slot")
    else
      var key := IntToString(itemId);
      if key in cache.value then cache.value[key].dname else "Item ID " + IntToString(itemId)
  }
}

=== FILE: matchups.dfy ===
/** A hero's best and worst matchups from the matchup list of the API. */
module Matchups {

  import opened Records
  import opened Lists
  import opened Ranking

  const MinMatchupGames := 50
  const ListSize := 10

  /** `wins / games_played`; a matchup without games never reaches a ranking. */
  function WinRate(m: HeroMatchup): real
  {
    if m.gamesPlayed == 0 then 0.0 else m.wins as real / m.gamesPlayed as real
  }

  /** The ascending sort key. */
  function NegWinRate(m: HeroMatchup): real
  {
    -WinRate(m)
  }

  predicate Qualifies(m: HeroMatchup)
  {
    m.gamesPlayed >= MinMatchupGames
  }

  /** Best matchups: at least 50 games, highest win rate first, ten at most. */
  function BestMatchups(ms: seq<HeroMatchup>): (r: seq<HeroMatchup>)
    ensures |r| == if |Filter(ms, Qualifies)| <= ListSize then |Filter(ms, Qualifies)| else ListSize
    ensures forall m :: m in r ==> m in ms && m.gamesPlayed >= MinMatchupGames
    ensures forall i, j :: 0 <= i < j < |r| ==> WinRate(r[i]) >= WinRate(r[j])
    ensures forall m, b :: m in ms && m.gamesPlayed >= MinMatchupGames && m !in r && b in r ==>
              WinRate(m) <= WinRate(b)
    ensures forall k :: Tied(r, WinRate, k) <= Tied(Filter(ms, Qualifies), WinRate, k)
  {
    var eligible := Filter(ms, Qualifies);
    TopFacts(eligible, WinRate, ListSize);
    Take(SortDesc(eligible, WinRate), ListSize)
  }

  /** Worst matchups: at least 50 games, lowest win rate first, ten at most. */
  function WorstMatchups(ms: seq<HeroMatchup>): (r: seq<HeroMatchup>)
    ensures |r| == if |Filter(ms, Qualifies)| <= ListSize then |Filter(ms, Qualifies)| else ListSize
    ensures forall m :: m in r ==> m in ms && m.gamesPlayed >= MinMatchupGames
    ensures forall i, j :: 0 <= i < j < |r| ==> WinRate(r[i]) <= WinRate(r[j])
    ensures forall m, w :: m in ms && m.gamesPlayed >= MinMatchupGames && m !in r && w in r ==>
              WinRate(w) <= WinRate(m)
    ensures forall k :: Tied(r, NegWinRate, k) <= Tied(Filter(ms, Qualifies), NegWinRate, k)
  {
    var eligible := Filter(ms, Qualifies);
    TopFacts(eligible, NegWinRate, ListSize);
    AscendingDominance(eligible, Take(SortDesc(eligible, NegWinRate), ListSize));
    Take(SortDesc(eligible, NegWinRate), ListSize)
  }

  /** Dominance under the negated key is dominance in ascending win rate. */
  lemma AscendingDominance(eligible: seq<HeroMatchup>, r: seq<HeroMatchup>)
    requires forall x, y :: x in eligible && x !in r && y in r ==> NegWinRate(x) <= NegWinRate(y)
    ensures forall x, y :: x in eligible && x !in r && y in r ==> WinRate(y) <= WinRate(x)
  {
    forall x, y | x in eligible && x !in r && y in r ensures WinRate(y) <= WinRate(x) {
      assert NegWinRate(x) <= NegWinRate(y);
    }
  }

  datatype MatchupAnalysis = NoMatchupData | Ranked(best: seq<HeroMatchup>, worst: seq<HeroMatchup>)

  /** Both lists, or the "no matchup data" answer for an empty list. */
  function AnalyzeMatchups(ms: seq<HeroMatchup>): (r: MatchupAnalysis)
    ensures r.NoMatchupData? <==> ms == []
    ensures r.Ranked? ==> r.best == BestMatchups(ms) && r.worst == WorstMatchups(ms)
  {
    if ms == [] then NoMatchupData else Ranked(BestMatchups(ms), WorstMatchups(ms))
  }

  /** A matchup under 50 games, such as one with 40, is in neither list. */
  lemma FewGamesInNeitherList(ms: seq<HeroMatchup>, m: HeroMatchup)
    requires m.gamesPlayed < MinMatchupGames
    ensures m !in BestMatchups(ms) && m !in WorstMatchups(ms)
  {
  }

  /** With ten or more qualifying matchups both lists are full: a corollary
      of their exact lengths. */
  lemma {:induction false} ListsFullWhenEnoughData(ms: seq<HeroMatchup>)
    requires |Filter(ms, Qualifies)| >= ListSize
    ensures |BestMatchups(ms)| == ListSize && |WorstMatchups(ms)| == ListSize
  {
  }
}

=== FILE: player_heroes.dfy ===
/** A player's hero rankings and the win/loss summary of their recent matches. */
module PlayerHeroes {

  import opened Records
  import opened Lists
  import opened Ranking

  const RankingSize := 10
  const MinEffectiveGames := 5

  function GamesKey(p: PlayerHero): real
  {
    p.games as real
  }

  /** `win / games`; only ever compared for heroes with at least five games. */
  function WinRatio(p: PlayerHero): real
  {
    if p.games == 0 then 0.0 else p.win as real / p.games as real
  }

  predicate HasFiveGames(p: PlayerHero)
  {
    p.games >= MinEffectiveGames
  }

  /** Most played: by games, descending, first ten. */
  function MostPlayed(stats: seq<PlayerHero>): (r: seq<PlayerHero>)
    ensures |r| == if |stats| <= RankingSize then |stats| else RankingSize
    ensures forall p :: p in r ==> p in stats
    ensures forall i, j :: 0 <= i < j < |r| ==> r[i].games >= r[j].games
    ensures forall p, q :: p in stats && p !in r && q in r ==> p.games <= q.games
    ensures forall k :: Tied(r, GamesKey, k) <= Tied(stats, GamesKey, k)
  {
    TopFacts(stats, GamesKey, RankingSize);
    GamesOrder(stats, Take(SortDesc(stats, GamesKey), RankingSize));
    Take(SortDesc(stats, GamesKey), RankingSize)
  }

  /** Order and dominance by the sort key are order and dominance by games. */
  lemma GamesOrder(stats: seq<PlayerHero>, r: seq<PlayerHero>)
    requires SortedDesc(r, GamesKey)
    requires forall p, q :: p in stats && p !in r && q in r ==> GamesKey(p) <= GamesKey(q)
    ensures forall i, j :: 0 <= i < j < |r| ==> r[i].games >= r[j].games
    ensures forall p, q :: p in stats && p !in r && q in r ==> p.games <= q.games
  {
    forall i, j | 0 <= i < j < |r| ensures r[i].games >= r[j].games {
      assert GamesKey(r[i]) >= GamesKey(r[j]);
    }
    forall p, q | p in stats && p !in r && q in r ensures p.games <= q.games {
      assert GamesKey(p) <= GamesKey(q);
    }
  }

  /** Most effective: heroes with at least five games, by win ratio,
      descending, first ten. */
  function MostEffective(stats: seq<PlayerHero>): (r: seq<PlayerHero>)
    ensures |r| == if |Filter(stats, HasFiveGames)| <= RankingSize then |Filter(stats, HasFiveGames)| else RankingSize
    ensures forall p :: p in r ==> p in stats && p.games >= MinEffectiveGames
    ensures forall i, j :: 0 <= i < j < |r| ==> WinRatio(r[i]) >= WinRatio(r[j])
    ensures forall p, q :: p in stats && p.games >= MinEffectiveGames && p !in r && q in r ==>
              WinRatio(p) <= WinRatio(q)
    ensures forall k :: Tied(r, WinRatio, k) <= Tied(Filter(stats, HasFiveGames), WinRatio, k)
  {
    var eligible := Filter(stats, HasFiveGames);
    TopFacts(eligible, WinRatio, RankingSize);
    Take(SortDesc(eligible, WinRatio), RankingSize)
  }

  /** Comparing win ratios is comparing cross products. */
  lemma RatioOrder(a: PlayerHero, b: PlayerHero)
    requires a.games > 0 && b.games > 0
    ensures WinRatio(a) <= WinRatio(b) <==> a.win * b.games <= b.win * a.games
  {
    var x, y := a.win as real / a.games as real, b.win as real / b.games as real;
    assert x * (a.games as real) == a.win as real;
    assert y * (b.games as real) == b.win as real;
    assert (a.win * b.games) as real == x * (a.games as real) * (b.games as real);
    assert (b.win * a.games) as real == y * (a.games as real) * (b.games as real);
  }

  datatype HeroRankings = NoHeroStats | Rankings(mostPlayed: seq<PlayerHero>, mostEffective: seq<PlayerHero>)

  /** The two rankings, or the "no statistics" answer for an empty list. */
  function PlayerHeroRankings(stats: seq<PlayerHero>): (r: HeroRankings)
    ensures r.NoHeroStats? <==> stats == []
    ensures r.Rankings? ==> r.mostPlayed != [] && |r.mostPlayed| <= RankingSize
    ensures r.Rankings? ==> r.mostPlayed == MostPlayed(stats) && r.mostEffective == MostEffective(stats)
  {
    if stats == [] then NoHeroStats
    else Rankings(MostPlayed(stats), MostEffective(stats))
  }

  predicate Won(m: MatchSummary)
  {
    IsWin(m.playerSlot, m.radiantWin)
  }

  /** The number of matches won: the length of the list of won matches. */
  function CountWins(ms: seq<MatchSummary>): (n: nat)
    ensures n == |Filter(ms, Won)|
    ensures n <= |ms|
    ensures n == |ms| <==> forall i :: 0 <= i < |ms| ==> Won(ms[i])
    ensures n == 0 <==> forall i :: 0 <= i < |ms| ==> !Won(ms[i])
  {
    if ms == [] then 0
    else (if Won(ms[0]) then 1 else 0) + CountWins(ms[1..])
  }

  datatype RecentSummary = NoRecentMatches | Summary(outcomes: seq<bool>, wins: nat, total: nat)

  /** Per-match outcome and the win count of a recent match list. */
  function RecentMatches(ms: seq<MatchSummary>): (r: RecentSummary)
    ensures r.NoRecentMatches? <==> ms == []
    ensures r.Summary? ==>
      && |r.outcomes| == r.total == |ms|
      && (forall i :: 0 <= i < |ms| ==> r.outcomes[i] == IsWin(ms[i].playerSlot, ms[i].radiantWin))
      && r.wins <= r.total
      && r.wins == CountWins(ms) == |Filter(ms, Won)|
  {
    if ms == [] then NoRecentMatches
    else Summary(seq(|ms|, i requires 0 <= i < |ms| => Won(ms[i])), CountWins(ms), |ms|)
  }
}

=== FILE: ranking.dfy ===
/** Ranking by `Array.prototype.sort` with a comparator of the form
    `(a, b) => key(b) - key(a)`. The sort is stable (required of every engine
    since ECMAScript 2019): elements with equal keys keep their input order.
    It is modelled by an insertion sort with exactly that tie rule. An
    ascending sort `(a, b) => key(a) - key(b)` is the same sort on `-key`. */
module Ranking {

  import opened Lists

  /** `s` is in non-increasing order of `key`. */
  predicate SortedDesc<T>(s: seq<T>, key: T -> real)
  {
    forall i, j :: 0 <= i < j < |s| ==> key(s[i]) >= key(s[j])
  }

  /** Non-increasing in `key`, and strictly increasing in `rank` among equal keys. */
  predicate LexSorted<T>(s: seq<T>, key: T -> real, rank: T -> int)
  {
    forall i, j :: 0 <= i < j < |s| ==>
      key(s[i]) > key(s[j]) || (key(s[i]) == key(s[j]) && rank(s[i]) < rank(s[j]))
  }

  /** Strictly increasing in `rank`. */
  predicate Ascending<T>(s: seq<T>, rank: T -> int)
  {
    forall i, j :: 0 <= i < j < |s| ==> rank(s[i]) < rank(s[j])
  }

  /** The elements of `s` whose key is `k`, in their order in `s`. */
  function Tied<T>(s: seq<T>, key: T -> real, k: real): seq<T>
  {
    if s == [] then []
    else (if key(s[0]) == k then [s[0]] else []) + Tied(s[1..], key, k)
  }

  /** Puts `x` in front of the first element whose key is not larger than its own. */
  function Insert<T>(x: T, s: seq<T>, key: T -> real): (r: seq<T>)
    ensures |r| == |s| + 1
    ensures multiset(r) == multiset(s) + multiset{x}
  {
    if s == [] || key(s[0]) <= key(x) then [x] + s
    else
      assert s == [s[0]] + s[1..];
      [s[0]] + Insert(x, s[1..], key)
  }

  /** The stable descending sort of `s` by `key`. */
  function SortDesc<T>(s: seq<T>, key: T -> real): (r: seq<T>)
    ensures |r| == |s|
    ensures multiset(r) == multiset(s)
  {
    if s == [] then []
    else
      assert s == [s[0]] + s[1..];
      Insert(s[0], SortDesc(s[1..], key), key)
  }

  lemma {:induction false} InsertSorted<T>(x: T, s: seq<T>, key: T -> real)
    requires SortedDesc(s, key)
    ensures SortedDesc(Insert(x, s, key), key)
  {
    if s == [] || key(s[0]) <= key(x) {
      PrependSorted(x, s, key);
    } else {
      InsertSorted(x, s[1..], key);
      InsertBelowHead(x, s, key);
      PrependSorted(s[0], Insert(x, s[1..], key), key);
    }
  }

  lemma PrependSorted<T>(x: T, s: seq<T>, key: T -> real)
    requires SortedDesc(s, key)
    requires forall i :: 0 <= i < |s| ==> key(s[i]) <= key(x)
    ensures SortedDesc([x] + s, key)
  {
    var r := [x] + s;
    forall i, j | 0 <= i < j < |r| ensures key(r[i]) >= key(r[j]) {
      assert r[j] == s[j - 1];
      if i > 0 {
        assert r[i] == s[i - 1];
      }
    }
  }

  /** Inserting into the tail of a sorted sequence whose head beats `x`
      leaves everything at or below the head. */
  lemma InsertBelowHead<T>(x: T, s: seq<T>, key: T -> real)
    requires s != [] && SortedDesc(s, key) && key(x) < key(s[0])
    ensures forall i :: 0 <= i < |Insert(x, s[1..], key)| ==> key(Insert(x, s[1..], key)[i]) <= key(s[0])
  {
    var t := Insert(x, s[1..], key);
    forall i | 0 <= i < |t| ensures key(t[i]) <= key(s[0]) {
      InsertFrom(x, s, key, t[i]);
    }
  }

  /** An element of the insertion into the tail is `x` or comes after the head. */
  lemma InsertFrom<T>(x: T, s: seq<T>, key: T -> real, y: T)
    requires s != [] && y in Insert(x, s[1..], key)
    ensures y == x || exists k :: 1 <= k < |s| && s[k] == y
  {
    assert y in multiset(Insert(x, s[1..], key));
    if y != x {
      assert y in multiset(s[1..]);
      var k :| 0 <= k < |s[1..]| && s[1..][k] == y;
      assert s[k + 1] == y;
    }
  }

  lemma {:induction false} SortDescSorted<T>(s: seq<T>, key: T -> real)
    ensures SortedDesc(SortDesc(s, key), key)
  {
    if s != [] {
      SortDescSorted(s[1..], key);
      InsertSorted(s[0], SortDesc(s[1..], key), key);
    }
  }

  lemma {:induction false} InsertTied<T>(x: T, s: seq<T>, key: T -> real, k: real)
    ensures Tied(Insert(x, s, key), key, k) == (if key(x) == k then [x] else []) + Tied(s, key, k)
  {
    if s == [] || key(s[0]) <= key(x) {
      TiedCons(x, s, key, k);
    } else {
      InsertTied(x, s[1..], key, k);
      TiedBehind(x, s, Insert(x, s[1..], key), key, k);
    }
  }

  lemma TiedCons<T>(y: T, t: seq<T>, key: T -> real, k: real)
    ensures Tied([y] + t, key, k) == (if key(y) == k then [y] else []) + Tied(t, key, k)
  {
    assert ([y] + t)[1..] == t;
  }

  /** `x` placed behind a head with a larger key joins the tie classes
      as if it came first. */
  lemma TiedBehind<T>(x: T, s: seq<T>, t: seq<T>, key: T -> real, k: real)
    requires s != [] && key(x) < key(s[0])
    requires Tied(t, key, k) == (if key(x) == k then [x] else []) + Tied(s[1..], key, k)
    ensures Tied([s[0]] + t, key, k) == (if key(x) == k then [x] else []) + Tied(s, key, k)
  {
    TiedCons(s[0], t, key, k);
    TiedCons(s[0], s[1..], key, k);
    assert [s[0]] + s[1..] == s;
    if key(x) == k {
      assert Tied(s, key, k) == [] + Tied(s[1..], key, k) == Tied(s[1..], key, k);
      assert Tied([s[0]] + t, key, k) == [] + Tied(t, key, k) == Tied(t, key, k);
    } else {
      assert Tied(t, key, k) == [] + Tied(s[1..], key, k) == Tied(s[1..], key, k);
      assert Tied(s, key, k) == [] + Tied(s, key, k);
    }
  }

  /** Stability: sorting does not reorder elements with equal keys. */
  lemma {:induction false} SortDescStable<T>(s: seq<T>, key: T -> real, k: real)
    ensures Tied(SortDesc(s, key), key, k) == Tied(s, key, k)
  {
    if s != [] {
      SortDescStable(s[1..], key, k);
      InsertTied(s[0], SortDesc(s[1..], key), key, k);
    }
  }

  /** Keeping a prefix keeps a prefix of every tie class. */
  lemma {:induction false} TiedTake<T>(s: seq<T>, key: T -> real, k: real, n: nat)
    ensures Tied(Take(s, n), key, k) <= Tied(s, key, k)
  {
    if |s| > n && n > 0 {
      TiedTake(s[1..], key, k, n - 1);
      assert Take(s, n)[1..] == Take(s[1..], n - 1);
    }
  }

  /** When the input is strictly ascending in `rank`, equal keys come out
      ascending in `rank`. */
  lemma {:induction false} InsertLexSorted<T>(x: T, s: seq<T>, key: T -> real, rank: T -> int)
    requires LexSorted(s, key, rank)
    requires forall i :: 0 <= i < |s| ==> rank(x) < rank(s[i])
    ensures LexSorted(Insert(x, s, key), key, rank)
  {
    if s == [] || key(s[0]) <= key(x) {
      forall i | 0 <= i < |s| ensures key(s[i]) < key(x) || (key(s[i]) == key(x) && rank(x) < rank(s[i])) {
        if i > 0 {
          assert key(s[0]) >= key(s[i]);
        }
      }
      PrependLexSorted(x, s, key, rank);
    } else {
      InsertLexSorted(x, s[1..], key, rank);
      InsertLexBelowHead(x, s, key, rank);
      PrependLexSorted(s[0], Insert(x, s[1..], key), key, rank);
    }
  }

  lemma PrependLexSorted<T>(x: T, s: seq<T>, key: T -> real, rank: T -> int)
    requires LexSorted(s, key, rank)
    requires forall i :: 0 <= i < |s| ==> key(s[i]) < key(x) || (key(s[i]) == key(x) && rank(x) < rank(s[i]))
    ensures LexSorted([x] + s, key, rank)
  {
    var r := [x] + s;
    forall i, j | 0 <= i < j < |r|
      ensures key(r[i]) > key(r[j]) || (key(r[i]) == key(r[j]) && rank(r[i]) < rank(r[j]))
    {
      assert r[j] == s[j - 1];
      if i > 0 {
        assert r[i] == s[i - 1];
      }
    }
  }

  lemma InsertLexBelowHead<T>(x: T, s: seq<T>, key: T -> real, rank: T -> int)
    requires s != [] && LexSorted(s, key, rank) && key(x) < key(s[0])
    ensures forall i :: 0 <= i < |Insert(x, s[1..], key)| ==>
      key(Insert(x, s[1..], key)[i]) < key(s[0]) ||
      (key(Insert(x, s[1..], key)[i]) == key(s[0]) && rank(s[0]) < rank(Insert(x, s[1..], key)[i]))
  {
    var t := Insert(x, s[1..], key);
    forall i | 0 <= i < |t| ensures key(t[i]) < key(s[0]) || (key(t[i]) == key(s[0]) && rank(s[0]) < rank(t[i])) {
      InsertFrom(x, s, key, t[i]);
    }
  }

  lemma {:induction false} SortDescLexSorted<T>(s: seq<T>, key: T -> real, rank: T -> int)
    requires Ascending(s, rank)
    ensures LexSorted(SortDesc(s, key), key, rank)
  {
    if s != [] {
      SortDescLexSorted(s[1..], key, rank);
      var t := SortDesc(s[1..], key);
      forall i | 0 <= i < |t| ensures rank(s[0]) < rank(t[i]) {
        assert t[i] in multiset(s[1..]);
        var k :| 0 <= k < |s[1..]| && s[1..][k] == t[i];
        assert t[i] == s[k + 1];
      }
      InsertLexSorted(s[0], t, key, rank);
    }
  }

  /** Top-k: an element left out of the first `n` of the ranking ranks no
      higher than any element kept. */
  lemma TakeDominates<T>(s: seq<T>, key: T -> real, n: nat, i: nat)
    requires i < |s|
    requires s[i] !in Take(SortDesc(s, key), n)
    ensures forall y :: y in Take(SortDesc(s, key), n) ==> key(s[i]) <= key(y)
  {
    var r := SortDesc(s, key);
    SortDescSorted(s, key);
    assert s[i] in multiset(r);
    var j :| 0 <= j < |r| && r[j] == s[i];
    assert j >= n;
    forall y | y in Take(r, n) ensures key(s[i]) <= key(y) {
      var m :| 0 <= m < |Take(r, n)| && Take(r, n)[m] == y;
      assert y == r[m];
    }
  }

  /** What a "sort, then keep the first `n`" ranking guarantees: at most `n`
      elements, all from the input, in non-increasing key order, nothing
      left out that outranks something kept, and ties in input order. */
  lemma TopFacts<T>(s: seq<T>, key: T -> real, n: nat)
    ensures var r := Take(SortDesc(s, key), n);
      && |r| == (if |s| <= n then |s| else n)
      && (forall x :: x in r ==> x in s)
      && SortedDesc(r, key)
      && (forall x, y :: x in s && x !in r && y in r ==> key(x) <= key(y))
      && (forall k :: Tied(r, key, k) <= Tied(s, key, k))
  {
    var sorted := SortDesc(s, key);
    var r := Take(sorted, n);
    SortDescSorted(s, key);
    forall x | x in r ensures x in s {
      assert x in multiset(sorted);
    }
    forall x, y | x in s && x !in r && y in r ensures key(x) <= key(y) {
      var i :| 0 <= i < |s| && s[i] == x;
      TakeDominates(s, key, n, i);
    }
    forall k ensures Tied(r, key, k) <= Tied(s, key, k) {
      TiedTake(sorted, key, k, n);
      SortDescStable(s, key, k);
    }
  }

  /** A top-`n` ranking keeps each element at most as often as the input
      has it, so repeated records are counted as copies, not as values. */
  lemma TopKeepsCopies<T>(s: seq<T>, key: T -> real, n: nat)
    ensures multiset(Take(SortDesc(s, key), n)) <= multiset(s)
  {
    var sorted := SortDesc(s, key);
    var r := Take(sorted, n);
    assert sorted == r + sorted[|r|..];
    assert multiset(sorted) == multiset(r) + multiset(sorted[|r|..]);
  }

  /** The first element of the sort of an ascending sequence: it comes from
      the input, no key beats it, and it has the smallest rank among the
      elements with its key. */
  lemma SortDescFirst<T>(s: seq<T>, key: T -> real, rank: T -> int, i: nat)
    requires Ascending(s, rank) && i < |s|
    ensures SortDesc(s, key)[0] in multiset(s)
    ensures key(s[i]) <= key(SortDesc(s, key)[0])
    ensures rank(s[i]) < rank(SortDesc(s, key)[0]) ==> key(s[i]) < key(SortDesc(s, key)[0])
  {
    var r := SortDesc(s, key);
    SortDescLexSorted(s, key, rank);
    assert s[i] in multiset(r);
    var j :| 0 <= j < |r| && r[j] == s[i];
    assert r[0] in multiset(s);
  }

  /** What the filter keeps from the tail of an ascending sequence ranks above its head. */
  lemma TailAboveHead<T(!new)>(s: seq<T>, p: T -> bool, rank: T -> int)
    requires s != [] && Ascending(s, rank)
    ensures forall i :: 0 <= i < |Filter(s[1..], p)| ==> rank(s[0]) < rank(Filter(s[1..], p)[i])
  {
    var t := Filter(s[1..], p);
    forall i | 0 <= i < |t| ensures rank(s[0]) < rank(t[i]) {
      assert t[i] in s[1..];
      var k :| 0 <= k < |s[1..]| && s[1..][k] == t[i];
      assert t[i] == s[k + 1];
    }
  }

  /** Filtering keeps a strictly ascending order. */
  lemma {:induction false} FilterAscending<T(!new)>(s: seq<T>, p: T -> bool, rank: T -> int)
    requires Ascending(s, rank)
    ensures Ascending(Filter(s, p), rank)
  {
    if s != [] {
      FilterAscending(s[1..], p, rank);
      TailAboveHead(s, p, rank);
      var t := Filter(s[1..], p);
      if p(s[0]) {
        var r := [s[0]] + t;
        assert Filter(s, p) == r;
        forall i, j | 0 <= i < j < |r| ensures rank(r[i]) < rank(r[j]) {
          assert r[j] == t[j - 1];
          if i > 0 {
            assert r[i] == t[i - 1];
          }
        }
      } else {
        assert Filter(s, p) == t;
      }
    }
  }
}

=== FILE: records.dfy ===
/** The records the statistics code reads. They come from the OpenDota API
    (fetched elsewhere) and are never changed once obtained. */
module Records {

  datatype Option<+T> = None | Some(value: T)

  /** A hero of the cached hero list. An absent `roles` array is the empty list. */
  datatype Hero = Hero(id: int, localizedName: string, roles: seq<string>)

  /** The meta statistics of one hero. Only bracket 7 is read: `win7` is the
      `7_win` field and `pick7` the `7_pick` field, each 0 when absent (`|| 0`). */
  datatype HeroMeta = HeroMeta(id: int, win7: real, pick7: real)

  /** One player's record on one hero. The API gives `hero_id` as a string. */
  datatype PlayerHero = PlayerHero(heroId: string, games: int, win: int)

  /** One opponent in a hero's matchup list. */
  datatype HeroMatchup = HeroMatchup(heroId: int, gamesPlayed: int, wins: int)

  /** One skill point spent: `ability` is the ability id, `level` the hero level. */
  datatype AbilityUpgrade = AbilityUpgrade(ability: nat, time: int, level: int)

  /** The searched player's entry in a detailed match: the six final item
      slots (each possibly absent) and the optional ability upgrade list. */
  datatype DetailedMatch = DetailedMatch(
    playerSlot: int,
    radiantWin: bool,
    item0: Option<int>, item1: Option<int>, item2: Option<int>,
    item3: Option<int>, item4: Option<int>, item5: Option<int>,
    abilityUpgrades: Option<seq<AbilityUpgrade>>)

  /** One entry of a player's recent match list. */
  datatype MatchSummary = MatchSummary(
    matchId: int, heroId: int, playerSlot: int, radiantWin: bool,
    duration: int, kills: int, deaths: int, assists: int)

  /** An entry of the item catalogue; only the display name is read. */
  datatype GameItem = GameItem(id: int, dname: string)

  /** Slots 0-127 are the Radiant side, the rest Dire: the player won exactly
      when their side is the side that won. */
  predicate IsWin(playerSlot: int, radiantWin: bool)
  {
    (playerSlot < 128) == radiantWin
  }

  lemma WinMeansOwnSideWon(playerSlot: int, radiantWin: bool)
    ensures IsWin(playerSlot, radiantWin) <==>
      (playerSlot < 128 && radiantWin) || (playerSlot >= 128 && !radiantWin)
  {
  }
}

=== FILE: text.dfy ===
/** The string operations the statistics code relies on: number-to-string
    (template literals), `parseInt` on decimal strings, and the
    case-insensitive substring test `a.toLowerCase().includes(b.toLowerCase())`. */
module Text {

  import opened Records

  predicate IsDigit(c: char)
  {
    '0' <= c <= '9'
  }

  predicate AllDigits(s: string)
  {
    forall i :: 0 <= i < |s| ==> IsDigit(s[i])
  }

  function DigitChar(d: nat): (c: char)
    requires d < 10
    ensures IsDigit(c) && c as int - '0' as int == d
  {
    ('0' as int + d) as char
  }

  /** The decimal spelling of `n`, without leading zeros. */
  function DecimalString(n: nat): (s: string)
    ensures |s| > 0 && AllDigits(s)
    ensures |s| > 1 ==> s[0] != '0'
    decreases n
  {
    if n < 10 then [DigitChar(n)]
    else DecimalString(n / 10) + [DigitChar(n % 10)]
  }

  /** `${i}` for an integer `i`. */
  function IntToString(i: int): (s: string)
    ensures |s| > 0
    ensures i < 0 <==> s[0] == '-'
  {
    if i < 0 then "-" + DecimalString(-i) else DecimalString(i)
  }

  /** `${i}` is a minus sign or digits, character by character. */
  lemma IntToStringChars(i: int)
    ensures forall k :: 0 <= k < |IntToString(i)| ==> IntToString(i)[k] == '-' || IsDigit(IntToString(i)[k])
  {
    if i < 0 {
      var d := DecimalString(-i);
      forall k | 1 <= k < |IntToString(i)| ensures IsDigit(IntToString(i)[k]) {
        assert IntToString(i)[k] == d[k - 1];
      }
    }
  }

  /** The value of a string of decimal digits. */
  function DigitsValue(s: string): nat
    requires AllDigits(s)
  {
    if s == [] then 0
    else DigitsValue(s[..|s| - 1]) * 10 + (s[|s| - 1] as int - '0' as int)
  }

  /** The longest prefix of `s` made of decimal digits. */
  function LeadingDigits(s: string): (r: string)
    ensures r <= s && AllDigits(r)
    ensures |r| < |s| ==> !IsDigit(s[|r|])
  {
    if s == [] || !IsDigit(s[0]) then []
    else [s[0]] + LeadingDigits(s[1..])
  }

  /** The white space and line terminators that `parseInt` skips: tab,
      vertical tab, form feed, the byte order mark, the four line
      terminators and every space separator of Unicode category Zs. */
  predicate IsSpace(c: char)
  {
    c == ' ' || c == '\t' || c == '\n' || c == '\r' || c == '\U{000B}' || c == '\U{000C}' ||
    c == '\U{00A0}' || c == '\U{FEFF}' || c == '\U{2028}' || c == '\U{2029}' ||
    c == '\U{1680}' || ('\U{2000}' <= c <= '\U{200A}') || c == '\U{202F}' || c == '\U{205F}' ||
    c == '\U{3000}'
  }

  function TrimStart(s: string): (r: string)
    ensures |r| <= |s| && r == s[|s| - |r|..]
    ensures r != [] ==> !IsSpace(r[0])
  {
    if s != [] && IsSpace(s[0]) then TrimStart(s[1..]) else s
  }

  /** `parseInt(s)` for base-10 text: leading white space, an optional sign,
      then the longest run of digits; no digits is `NaN` (here `None`). */
  function ParseInt(s: string): Option<int>
  {
    var t := TrimStart(s);
    var negative := |t| > 0 && t[0] == '-';
    var body := if |t| > 0 && (t[0] == '-' || t[0] == '+') then t[1..] else t;
    var digits := LeadingDigits(body);
    if digits == [] then None
    else
      var value: int := DigitsValue(digits);
      Some(if negative then -value else value)
  }

  lemma {:induction false} DecimalStringValue(n: nat)
    ensures DigitsValue(DecimalString(n)) == n
    decreases n
  {
    var s := DecimalString(n);
    if n >= 10 {
      DecimalStringValue(n / 10);
      assert s[..|s| - 1] == DecimalString(n / 10);
    }
  }

  lemma {:induction false} LeadingDigitsOfDigits(s: string)
    requires AllDigits(s)
    ensures LeadingDigits(s) == s
  {
    if s != [] {
      LeadingDigitsOfDigits(s[1..]);
    }
  }

  /** `parseInt` reads back what a template literal writes. */
  lemma ParseIntRoundTrip(i: int)
    ensures ParseInt(IntToString(i)) == Some(i)
  {
    var s := IntToString(i);
    var n: nat := if i < 0 then -i else i;
    var d := DecimalString(n);
    assert s == if i < 0 then "-" + d else d;
    assert !IsSpace(s[0]) by {
      assert s[0] == '-' || IsDigit(s[0]);
    }
    assert TrimStart(s) == s;
    var body := if i < 0 then s[1..] else s;
    assert body == d;
    LeadingDigitsOfDigits(d);
    DecimalStringValue(n);
  }

  /** `toLowerCase` on the ASCII letters. */
  function LowerChar(c: char): (d: char)
    ensures 'A' <= c <= 'Z' ==> d as int == c as int + 32
    ensures !('A' <= c <= 'Z') ==> d == c
  {
    if 'A' <= c <= 'Z' then (c as int + 32) as char else c
  }

  function Lower(s: string): (r: string)
    ensures |r| == |s|
    ensures forall i :: 0 <= i < |s| ==> r[i] == LowerChar(s[i])
  {
    if s == [] then [] else [LowerChar(s[0])] + Lower(s[1..])
  }

  /** `hay.includes(needle)`. */
  predicate Contains(hay: string, needle: string)
    decreases |hay|
  {
    needle <= hay || (hay != [] && Contains(hay[1..], needle))
  }

  /** `needle` occurs in `hay` starting at index `i`. */
  predicate OccursAt(hay: string, needle: string, i: nat)
  {
    i + |needle| <= |hay| && hay[i..i + |needle|] == needle
  }

  /** `includes` finds the needle exactly when it occurs at some index. */
  lemma {:induction false} ContainsIffOccurs(hay: string, needle: string)
    ensures Contains(hay, needle) <==> exists i: nat :: OccursAt(hay, needle, i)
    decreases |hay|
  {
    if needle <= hay {
      assert OccursAt(hay, needle, 0);
    } else if hay == [] {
      assert forall i: nat :: !OccursAt(hay, needle, i);
    } else {
      ContainsIffOccurs(hay[1..], needle);
      if Contains(hay[1..], needle) {
        var i: nat :| OccursAt(hay[1..], needle, i);
        OccursShift(hay, needle, i);
      }
      if exists i: nat :: OccursAt(hay, needle, i) {
        var i: nat :| OccursAt(hay, needle, i);
        assert i != 0;
        OccursShift(hay, needle, i - 1);
      }
    }
  }

  /** An occurrence in the tail is an occurrence one index further on. */
  lemma OccursShift(hay: string, needle: string, i: nat)
    requires hay != []
    ensures OccursAt(hay[1..], needle, i) <==> OccursAt(hay, needle, i + 1)
  {
    if i + 1 + |needle| <= |hay| {
      assert hay[1..][i..i + |needle|] == hay[i + 1..i + 1 + |needle|];
    }
  }

  /** Lower-casing works character by character, so it distributes over
      concatenation. */
  lemma LowerConcat(a: string, b: string)
    ensures Lower(a + b) == Lower(a) + Lower(b)
  {
    assert forall i :: 0 <= i < |a + b| ==> Lower(a + b)[i] == (Lower(a) + Lower(b))[i];
  }

  /** `hay.toLowerCase().includes(needle.toLowerCase())`. */
  predicate ContainsIgnoringCase(hay: string, needle: string)
  {
    Contains(Lower(hay), Lower(needle))
  }

  /** A string cannot contain a needle that has a character it lacks. */
  lemma {:induction false} MissingCharNotContained(hay: string, needle: string, c: char)
    requires c in needle && c !in hay
    ensures !Contains(hay, needle)
    decreases |hay|
  {
    if hay != [] {
      MissingCharNotContained(hay[1..], needle, c);
    }
  }
}
